=== FILE: README.md ===
# SoftDesk authorization engine, modelled in Dafny

SoftDesk is a Django REST Framework API for issue tracking. Projects have
contributors, issues belong to projects and comments belong to issues.
This project models the part that decides who may do what:

- the per-viewset permission tables and their tuple-key normalisation
  (`flatten_tuple_of_keys`);
- the list of permission classes resolved for each request, and the decision
  it produces: not authenticated, not found, denied with the fixed French
  message, allowed, or method not allowed;
- the per-request memo of the current project and of its contributor ids;
- the admin check and the ownership check;
- the store's uniqueness keys, its cascading deletes, the refusal to remove
  a project's author from its contributors, and the post-save receiver that
  enrols a project's author;
- how `perform_create` turns a uniqueness violation into a resource-specific
  validation message;
- the age rule of account validation;
- the comment preview shown in the admin list;
- the earlier revision at the repository root. It has a different project
  policy, concrete author and contributor checks, a receiver without the
  `created` guard, no delete guard on contributors, and issue and comment
  creation that never set an author. It is compared with the current
  revision.

Modules, one per file:

| module | file | models |
|---|---|---|
| `Wrappers` | wrappers.dfy | `Option` and `Result` |
| `TupleKeys` | tuple_keys.dfy | softdesk/utils/utils.py |
| `Accounts` | accounts.dfy | myauth/permissions.py |
| `Age` | age.dfy | myauth/validators.py and `User.clean` in src/myauth/models.py |
| `Store` | store.dfy | src/softdesk/models.py and src/softdesk/signals.py |
| `Policy` | policy.dfy | the permission and serializer tables of src/softdesk/views.py, and how they are resolved |
| `Views` | views.dfy | `current_project`, `current_project_contributors_id` and `perform_create` in src/softdesk/views.py |
| `Admin` | admin.dfy | `CommentAdmin.short_content` |
| `Older` | older.dfy | softdesk/views.py, softdesk/models.py and softdesk/permissions.py at the repository root |

How the model is set up:

- **Abstract checks.** The current revision's `IsResourceAuthor`,
  `IsUserContributor`, `IsProjectAuthor` and `IsProjectContributor` live in
  a src/softdesk/permissions.py that is not part of this model. The model
  does not guess what they contain. Their outcome for a request is an input,
  `Policy.Facts`, with three possible values: holds, fails, or a raised
  NotFound (Http404). The model does not say which lookup raises it.
- **Concrete admin check.** `IsAdminAuthenticated` is modelled concretely.
- **Composition.** DRF's `|` between permission classes is evaluated like
  Python's `or`: left to right, short-circuiting, and an exception raised
  by one alternative propagates.
- **Store.** The database is a record of finite maps keyed by primary key,
  with auto-increment counters. `Store.Valid` holds every constraint at
  once: the three uniqueness keys, the foreign keys, fresh counters, and
  every author being enrolled in their own project.
- **Clock.** The date today is a parameter.

## Model

| member | source | states |
|---|---|---|
| `TupleKeys.FlattenTupleOfKeys` | softdesk/utils/utils.py:2-13 | The loop builds exactly the recursive reference `Flatten`. Its key set is the plain keys plus every member of every tuple key. |
| `TupleKeys.FlattenKeys` | softdesk/utils/utils.py:6-13 | The output keys are exactly the non-tuple keys plus the elements of the tuple keys. |
| `TupleKeys.WriteEach` | softdesk/utils/utils.py:8-10 | The inner loop writes the tuple's value under every member of the tuple. |
| `TupleKeys.LastWriteWins` | softdesk/utils/utils.py:7-12 | When two entries cover the same key, the later entry in insertion order provides the value. |
| `TupleKeys.SingleKeyKeepsValue` | softdesk/utils/utils.py:11-12 | A plain key that no later entry covers maps to its own value. |
| `TupleKeys.TupleMemberTakesTupleValue` | softdesk/utils/utils.py:8-10 | A member of a tuple key that no later entry covers maps to the tuple's value. |
| `TupleKeys.EmptyTupleIsInert` | softdesk/utils/utils.py:8-10 | Inserting an empty tuple key anywhere in the input changes nothing. |
| `TupleKeys.FlattenWithoutTuples` | softdesk/utils/utils.py:11-12 | On an input with only distinct plain keys, every key keeps its own value. |
| `TupleKeys.FlattenIdempotent` | softdesk/utils/utils.py:6-13 | Listing a flattened map as plain entries, in any order, and flattening it again gives the same map. |
| `Accounts.AdminIgnoresStaff` | myauth/permissions.py:12 | The `is_staff` flag never changes the admin decision. Only `is_superuser` does. |
| `Accounts.OwnershipIsIdentity` | myauth/permissions.py:16-22 | An authenticated caller owns its own account. One caller owns only accounts with a single id. Neither an absent nor an anonymous caller owns any account. |
| `Policy.ExpandedProjectMap` | src/softdesk/views.py:172-181 | After tuple expansion, the project table is Contributor∨Admin for retrieve and ResourceAuthor∨Admin for update, partial_update and destroy. Nothing else is listed. |
| `Policy.ExpandedContributorMap` | src/softdesk/views.py:236-247 | After expansion, the contributor table is ProjectAuthor∨Admin for create and UserContributor∨ProjectAuthor∨Admin for destroy. |
| `Policy.ExpandedIssueMap` | src/softdesk/views.py:315-326 | The issue and comment tables expand to ResourceAuthor∨Admin for update and partial_update, and to ResourceAuthor∨ProjectAuthor∨Admin for destroy. |
| `Policy.GetPermissions` | src/softdesk/views.py:81-92 | The list always starts with IsAuthenticated. The rest is the action's table entry when the action is listed, and the viewset's defaults otherwise. |
| `Policy.ResolvedPermissions` | src/softdesk/views.py:87-92 | The resolved list is IsAuthenticated followed by the one extra requirement of the action, never both the entry and the defaults. |
| `Policy.EvalAnyOf` | src/softdesk/views.py:174-175 | An OR of checks fails iff every alternative fails. It holds iff some alternative holds before any NotFound. A NotFound result means some alternative raised it. |
| `Policy.CheckPermissions` | src/softdesk/views.py:92 | A request passes iff every class in the list holds. Any denial carries the fixed message. |
| `Policy.DenialsAreUniform` | src/softdesk/views.py:94-100 | Any two refusals of the same caller are the same response, whatever the viewset, action or facts. An anonymous caller gets NotAuthenticated; anyone else gets the one fixed message. |
| `Policy.Decide` | src/softdesk/views.py:81-100 | An anonymous request is refused as unauthenticated. Every denial uses the fixed message. |
| `Policy.DecideUnfolded` | src/softdesk/views.py:87-92 | The decision is the login check followed by at most one OR of checks. |
| `Policy.AnyOfResolved` | src/softdesk/views.py:177-180 | When no check raises NotFound, an OR holds exactly when one of its checks holds. |
| `Policy.DecideFollowsTable` | src/softdesk/views.py:166-403 | For an authenticated caller whose checks all resolve, the decision matches the API's policy table in both directions: allowed iff the table allows, otherwise denied with the fixed message. |
| `Policy.TableMatchesChecks` | src/softdesk/views.py:166-403 | Each viewset's declared checks say the same as the API's policy table. An action with no check beyond login is always allowed. Otherwise the table allows exactly when one of the OR's checks holds. |
| `Policy.AdminOverride` | myauth/permissions.py:8-13 | An authenticated superuser is allowed every action of every kind. The only exception is NotFound, raised by a check placed before the admin check. |
| `Policy.ChecksBracketed` | src/softdesk/views.py:236-247 | On every viewset, only project list and create declare no OR beyond login. Every other action has exactly one OR of at least two checks. It starts with a check other than the admin check and ends with `IsAdminAuthenticated`. The contributor table here has that shape, and so do the project, issue and comment tables. |
| `Policy.MissingProjectIsNotFound` | src/softdesk/views.py:102-111 | The lemma assumes every hidden check reports NotFound, as it would if the project named in the URL were missing and the check looked it up through `current_project`. Under that assumption every authenticated caller, admins included, gets NotFound and never a denial. This is because every declared OR puts a check other than the admin check first, so the NotFound propagates before `IsAdminAuthenticated` is consulted. Project list and create are allowed, because they consult no check. |
| `Policy.ProjectScenario` | src/softdesk/views.py:172-181 | For a non-admin, project retrieve needs contributorship and project update needs authorship. List and create need only login. |
| `Policy.Handle` | src/softdesk/views.py:248 | Permissions are checked first. A method the viewset does not serve is refused only after they pass. |
| `Policy.ContributorsAreNotEditable` | src/softdesk/views.py:248 | No one can PUT or PATCH a contributor, not even an admin. |
| `Policy.ContributorSerializerEntries` | src/softdesk/views.py:231-235 | After expansion, the contributor serializer map serves list, retrieve and create. It has no entry for update, partial_update or destroy. |
| `Policy.PostSerializerEntries` | src/softdesk/views.py:167-171 | After expansion, the project map gives list and retrieve their serializers, and create, update and partial_update the post serializer. It has no entry for destroy. The issue and comment maps (lines 310-314 and 387-391) have the same shape. |
| `Policy.UpdateSerializersAgree` | src/softdesk/views.py:70-79 | update and partial_update resolve to the same serializer. That is the post serializer, except for contributors, who fall back to the list serializer. |
| `Policy.SerializerDispatch` | src/softdesk/views.py:76-79 | A mapped action gets its mapped serializer. destroy, which is unmapped, gets the viewset's default serializer_class. |
| `Views.CurrentProject` | src/softdesk/views.py:102-111 | The project is looked up once and then served from the cache. A missing project is NotFound and leaves the cache empty. |
| `Views.CurrentProjectIsMemoised` | src/softdesk/views.py:108-111 | Once cached, the project stays the same even if the store changes later in the request. |
| `Views.CurrentContributorIds` | src/softdesk/views.py:113-126 | The result is exactly the user ids of the current project's contributor rows. It is computed once and fails iff the project lookup fails. |
| `Views.ContributorIdsAreMemoised` | src/softdesk/views.py:121-126 | Once computed, the id set is served again unchanged. |
| `Views.AuthorSeesOwnProject` | src/softdesk/signals.py:12-17 | Right after creating a project, its author is in that project's contributor-id set. |
| `Views.PerformCreateProject` | src/softdesk/views.py:190-203 | A duplicate (author, title) gives the project message. Otherwise exactly one project is added, under a new key, with the caller as author. Exactly one contributor row is added, making the author its only contributor. Issues and comments are unchanged, and the store stays valid. |
| `Views.PerformCreateContributor` | src/softdesk/views.py:257-278 | A missing project is a server error. An existing contributor gives the contributor message. Otherwise exactly one contributor row is added, for that user and project, under a new key. Projects, issues, comments and the other rows are unchanged, and the store stays valid. |
| `Views.EnrollAddsUser` | src/softdesk/views.py:270-274 | Enrolling a user adds exactly that user to the project's contributor ids. |
| `Views.PerformCreateIssue` | src/softdesk/views.py:336-351 | A missing project is a server error. A duplicate (author, project, title) gives the issue message. Otherwise exactly one issue is added under a key not used before, with the caller as author and TO_DO as the default status, and nothing else changes. |
| `Views.PerformCreateComment` | src/softdesk/views.py:414-421 | Comment creation never produces a validation message. Its only failures are a missing issue or a reused key. Otherwise exactly one comment row is added, with the caller as author, and nothing else in the store changes. |
| `Store.EnrolledIffListed` | src/softdesk/models.py:70-73 | Having a contributor row is the same as being in the project's contributor-id set. |
| `Store.EmptyIsValid` | src/softdesk/models.py:39-42 | The empty store meets every constraint. |
| `Store.InsertContributor` | src/softdesk/models.py:70-73 | Saving a contributor fails with an integrity error iff the project is missing or the pair already exists. Success keeps the store valid. |
| `Store.CreateProject` | src/softdesk/models.py:39-42 | Fails iff the author already has a project with that title. Otherwise adds exactly one new contributor row, for the author, and keeps the store valid. |
| `Store.SaveProject` | src/softdesk/models.py:39-42 | A re-save fails iff another project of the same author has the new title. Otherwise it changes only that project's title and type, touches no contributor, issue or comment, and keeps a valid store valid. |
| `Store.DeleteContributor` | src/softdesk/models.py:75-84 | Removing the author's own row is refused with the fixed message and removes nothing. Any other row is removed alone. |
| `Store.DeleteProject` | src/softdesk/models.py:56-59 | Removes the project, its contributor rows, its issues and their comments, and nothing else. The store stays valid. |
| `Store.CreateIssue` | src/softdesk/models.py:145-161 | Fails iff the project is missing or (author, project, title) is taken. The status defaults to TO_DO, and priority and type may be absent. |
| `Store.DeleteIssue` | src/softdesk/models.py:180-184 | Removes the issue and exactly its comments. Every other comment keeps its content, and projects and contributors are untouched. |
| `Store.SaveIssue` | src/softdesk/models.py:154-161 | An issue update keeps its author and project. It fails iff another issue of the same author and project has the new title. Otherwise it changes only that issue and keeps the store valid. |
| `Store.SaveComment` | src/softdesk/models.py:167-185 | A comment update changes only that comment's content, never fails, and keeps the store valid. |
| `Store.CreateComment` | src/softdesk/models.py:167-185 | Fails iff the issue is missing or the UUID is taken. Success stores exactly the new comment. |
| `Store.DeleteComment` | src/softdesk/models.py:167-191 | Removes exactly that comment and keeps the store valid. |
| `Store.AuthorsStayEnrolled` | src/softdesk/models.py:75-84 | An operation that keeps every project's author and every contributor row of a kept project keeps every author enrolled. |
| `Store.Apply` | src/softdesk/models.py:39-185 | Every store write, whether it succeeds or is refused, leaves a valid store. The writes are creating, editing and deleting projects, issues and comments, and enrolling and removing contributors. |
| `Store.RunKeepsValid` | src/softdesk/models.py:70-84 | Any sequence of operations preserves every constraint. |
| `Store.AuthorAlwaysContributor` | src/softdesk/signals.py:12-17 | After any sequence of single-record operations, every project's author is among its contributors. The creation receiver and the delete guard together ensure this. |
| `Store.SameTitleTwoAuthors` | src/softdesk/models.py:39-42 | Two different authors may each create a project with the same title. |
| `Store.ResaveEnrollsNobody` | src/softdesk/signals.py:12 | A save with `created` false writes nothing. On a valid store, enrolling the author again would be a conflict. |
| `Age.AgeOn` | myauth/validators.py:10-13 | The computed age is the largest number of anniversaries of the birth date reached by today. The comparison of (month, day) pairs is lexicographic. |
| `Age.AgeIsLargestReached` | myauth/validators.py:11-13 | Every anniversary already reached is at most the computed age. |
| `Age.ValidateAge` | myauth/validators.py:15-18 | The error is raised iff the fifteenth birthday has not been reached. |
| `Age.AgeMonotone` | myauth/validators.py:11-13 | An earlier birth date never gives a smaller age. |
| `Age.FifteenthBirthday` | myauth/validators.py:11-18 | On the fifteenth birthday the date is accepted. Earlier in that year it is rejected. |
| `Age.LeapDayBirthday` | myauth/validators.py:12 | A birth date of 29 February is not yet counted on 28 February of a non-leap year. It is counted on 1 March. |
| `Age.Clean` | src/myauth/models.py:26-47 | A missing birth date is refused first. Otherwise the error is raised iff the fifteenth birthday has not been reached, and it is always the minimum-age message, never the birth-date one. |
| `Age.CleanIgnoresStaff` | src/myauth/models.py:33-37 | Despite the "non-staff" wording of its message, the birth-date requirement applies to staff too. |
| `Admin.ShortContent` | src/softdesk/admin.py:43-49 | Empty content gives `''`. Up to 60 characters are returned unchanged. Longer content becomes its first 60 characters plus `...`. The result has at most 63 characters and keeps the content's first min(60, len) characters. |
| `Admin.PreviewIsFaithful` | src/softdesk/admin.py:48 | The preview equals the content iff the content fits in 60 characters, or already has 63 characters ending in `...`. A longer preview ends in the ellipsis. |
| `Older.ContributorCheckReadsIndex` | softdesk/permissions.py:9-11 | The older contributor check holds iff the caller is authenticated and among the project's contributor ids. |
| `Older.Decide` | softdesk/views.py:48-62 | Project update, partial_update and destroy need (login ∧ author) ∨ admin. Retrieve also admits contributors. Every other project action, and every action on the other viewsets, needs only login. |
| `Older.CurrentNarrowsOlder` | softdesk/views.py:22 | Whatever the current revision allows on contributors, issues and comments, the earlier revision allowed too. |
| `Older.ProjectPoliciesAgree` | softdesk/views.py:54-59 | On a valid store, when the current checks answer as the older concrete ones do, both revisions allow exactly the same project requests. The author disjunct is subsumed because authors are enrolled. |
| `Older.ResaveProject` | softdesk/models.py:22-25 | A re-save writes the new title and type first. The receiver then fails with an integrity error exactly when the author is already enrolled, and otherwise adds one author row. |
| `Older.ResaveAlwaysConflicts` | softdesk/models.py:35 | While the author is still enrolled, every re-save of an existing project collides with the author's own contributor row. The new fields are written all the same. |
| `Older.ResaveCounterexample` | softdesk/models.py:22-35 | Creating a project and saving it once more fails with an integrity error. |
| `Older.DeleteContributor` | softdesk/models.py:28-35 | The older contributor model has no delete guard: any row is removed, the author's own included, and only that row. |
| `Older.UnguardedRemovalLetsResaveSucceed` | softdesk/models.py:22-35 | The current revision refuses to remove an author's row, but the older one removes it. After that, a re-save of the project no longer collides. |
| `Older.CreateProject` | softdesk/models.py:8-25 | With no uniqueness constraint, creation always succeeds on a consistent store, enrols the author and keeps keys consistent. |
| `Older.DuplicateProjectsAccepted` | softdesk/models.py:8-19 | The same author may create two projects with the same title. |
| `Older.CreateIssue` | softdesk/models.py:44-77 | No uniqueness on issues. A row without an author is refused by the NOT NULL author column, as is a missing project. The status defaults to TO_DO. |
| `Older.DuplicateIssuesAccepted` | softdesk/models.py:44-77 | Two identical issues are both accepted. |
| `Older.PerformCreateIssue` | softdesk/views.py:101-103 | The older issue creation saves the row with the project alone, so it always ends in a server error. |
| `Older.IssueCreationNeverStores` | softdesk/views.py:101-103 | The older view never creates an issue. The current view creates one exactly when the project exists and the (author, project, title) triple is free. |
| `Older.CreateComment` | softdesk/models.py:80-85 | A comment row without an author is refused, as is a missing issue or a reused key. |
| `Older.PerformCreateComment` | softdesk/views.py:119-121 | The older comment creation saves the row with the issue alone, so it always ends in a server error. |
| `Older.CommentCreationNeverStores` | softdesk/views.py:119-121 | The older view never creates a comment. The current view creates one exactly when the issue exists and the key is free. |
| `Older.PerformCreateContributor` | softdesk/views.py:77-85 | The older contributor creation never produces the validation message. A duplicate becomes a server error. |
| `Older.DuplicateContributorCounterexample` | softdesk/views.py:3 | Re-adding a project's author is a server error in the older revision and the duplicate message in the current one. |
| `Older.SerializerClass` | softdesk/views.py:24-114 | list gets the list serializer, retrieve the detail serializer, and create the creation serializer. update and partial_update get the update serializer, except on contributors. There, and for destroy everywhere, the default list serializer applies. |
| `Older.SerializerRevisionsAgree` | softdesk/views.py:24-114 | For every viewset and action, the current dispatch picks the successor of the older one. The older create and update serializers map to the one post serializer, and nothing else changed. |

## Left out

- HTTP parsing, routing, JWT authentication, serializers' field validation,
  filter sets, pagination, querysets and `get_view_name`: they are I/O or
  framework code, not part of the decision.
- The four checks in src/softdesk/permissions.py: src/softdesk/permissions.py
  is not part of this model. Their outcome is the `Facts` input.
- DRF splits a permission into `has_permission` and
  `has_object_permission`, and `get_object` runs between the two. Both
  revisions fold this into one boolean per check. In both, NotFound for a
  missing object comes before any object check.
- The date today, UUID generation and auto-increment keys are parameters
  or counters. Timestamps (`time_created`) are not modelled.
- `AbstractUser.clean` (called through `super().clean()`) is framework
  code. It is not modelled.
- Database cascades when a *user* is deleted: users are not stored in the
  model.
- The 100-character limit on titles and the serializers' choice
  validation: enumerations are datatypes, so invalid choices cannot be
  written, and lengths are not checked.
- The older `CommentAdmin.short_content` in softdesk/admin.py:30-33 is the
  same expression as the current one, so `Admin.ShortContent` stands for
  both. It reads `content`, but the older Comment model names the field
  `description`. That older copy would fail on any row; this is not
  modelled further.
- Older.Decide: reads the older `&`/`|` expressions as boolean formulas.
  Recent DRF releases evaluate them that way at object level. Older DRF
  releases let an alternative that defines no object check pass every
  object; that framework behaviour is not modelled.
- Older.CreateIssue: the author is a parameter that may be absent. The
  older view never supplies it, so it is absent on every request (see
  Findings). Assignee, priority and type are parameters, as in the current
  revision.
- Older.PerformCreateIssue: the older creation serializers name fields the
  older models lack. The issue serializer has `assigned_to` where the model
  has `to_user`, and the comment serializer has `content` where the model has
  `description`. Those mismatches are not modelled; the failure is modelled
  through the missing author alone.
- Older.ResaveProject: the store keeps the UPDATE even though the receiver
  fails, which is Django's default autocommit. The settings module is not
  part of this model. Under `ATOMIC_REQUESTS` the UPDATE would be rolled
  back with the failed request.
- Store.SaveIssue: a PUT or PATCH is taken to change title, assignee,
  priority, type and status, and never author or project. The current
  serializers are not part of this model. Store.SaveComment likewise changes
  only the content.
- Policy.SerializerDispatch: PUT and PATCH on contributors never reach the
  serializer, because the method is refused. The lemma states the fallback
  the table gives for those actions.

## Findings

| source | as written | input that shows it | evidently intended | confidence | as-written member | corrected member |
|---|---|---|---|---|---|---|
| softdesk/models.py:22-25 | the post-save receiver enrols the author on every save of a project | create a project, then save it again (for example a PATCH of its title) | enrol only when `created` is true, as src/softdesk/signals.py:12 does | high, not executed | `Older.ResaveAlwaysConflicts` | `Store.ResaveEnrollsNobody` |
| softdesk/views.py:3 | duplicate contributors are caught as `sqlite3.IntegrityError`, while the ORM raises `django.db.IntegrityError` | POST the project's author as a contributor of their own project | turn the uniqueness violation into the "déjà contributeur" validation error, as src/softdesk/views.py:1 and 270-278 do | high, not executed | `Older.DuplicateContributorCounterexample` | `Views.PerformCreateContributor` |
| softdesk/views.py:101-103 | the older issue creation saves the row with the project alone, while `Issue.author` (softdesk/models.py:60-62) is a NOT NULL foreign key and no serializer field supplies it | POST any issue to an existing project | pass the caller as author, as src/softdesk/views.py:346 does | medium, not executed | `Older.IssueCreationNeverStores` | `Views.PerformCreateIssue` |
| softdesk/views.py:119-121 | the older comment creation saves the row with the issue alone, while `Comment.author` (softdesk/models.py:82) is a NOT NULL foreign key | POST any comment to an existing issue | pass the caller as author, as src/softdesk/views.py:421 does | medium, not executed | `Older.CommentCreationNeverStores` | `Views.PerformCreateComment` |

=== FILE: accounts.dfy ===
/** The caller of a request and the account-level permission classes
    (myauth/permissions.py). */
module Accounts {
  import opened Wrappers

  type UserId = nat

  /** A user as the permission classes see it. An anonymous caller is a
      principal whose isAuthenticated flag is false. */
  datatype Principal = Principal(id: UserId, isAuthenticated: bool, isSuperuser: bool, isStaff: bool)

  /** `request.user` may be absent altogether. */
  type RequestUser = Option<Principal>

  /** IsAuthenticated: a user is present and authenticated. */
  predicate IsAuthenticated(user: RequestUser)
  {
    user.Some? && user.value.isAuthenticated
  }

  /** `request.user == <some user row>`: model instances compare by primary
      key, and an anonymous caller equals no stored user. */
  predicate IsUser(user: RequestUser, id: UserId)
  {
    IsAuthenticated(user) && user.value.id == id
  }

  /** IsAdminAuthenticated.has_permission: present, authenticated and
      superuser. Only the request is read, so the answer is the same for
      every view, action and object. */
  predicate IsAdminAuthenticated(user: RequestUser)
  {
    user.Some? && user.value.isAuthenticated && user.value.isSuperuser
  }

  /** Admin status is keyed on the superuser flag: flipping the staff flag
      never changes it, flipping the superuser flag of an authenticated user does. */
  lemma AdminIgnoresStaff(p: Principal, staff: bool)
    ensures IsAdminAuthenticated(Some(p)) == IsAdminAuthenticated(Some(p.(isStaff := staff)))
    ensures p.isAuthenticated ==>
      IsAdminAuthenticated(Some(p)) != IsAdminAuthenticated(Some(p.(isSuperuser := !p.isSuperuser)))
  {
  }

  /** IsOwner.has_object_permission: the target user object is the caller. */
  function IsOwner(user: RequestUser, obj: Principal): bool
  {
    IsUser(user, obj.id)
  }

  /** Ownership is identity of accounts: an authenticated caller owns its
      own account and, among accounts, only those with its id; two accounts
      owned by one caller share their id; an anonymous caller owns none. */
  lemma OwnershipIsIdentity(p: Principal, a: Principal, b: Principal)
    ensures IsOwner(Some(p), p) <==> p.isAuthenticated
    ensures IsOwner(Some(p), a) && IsOwner(Some(p), b) ==> a.id == b.id
    ensures !IsOwner(None, a) && !IsOwner(Some(p.(isAuthenticated := false)), a)
    ensures IsOwner(Some(p), a) ==> IsOwner(Some(p), p) && IsAuthenticated(Some(p))
  {
  }
}

=== FILE: admin.dfy ===
/** The comment preview of the admin site (CommentAdmin.short_content).
    Both revisions carry the same method. */
module Admin {

  const PreviewLength: nat := 60
  const Ellipsis: string := "..."

  function Min(a: nat, b: nat): nat
  {
    if a <= b then a else b
  }

  /** `content[:60] + ("..." if len(content) > 60 else '')` for non-empty
      content, `''` for empty content. */
  function ShortContent(content: string): (r: string)
    ensures |content| == 0 ==> r == ""
    ensures |content| <= PreviewLength ==> r == content
    ensures |content| > PreviewLength ==> r == content[..PreviewLength] + Ellipsis
    ensures |r| <= PreviewLength + |Ellipsis|
    ensures r[..Min(PreviewLength, |content|)] == content[..Min(PreviewLength, |content|)]
  {
    if |content| == 0 then ""
    else content[..Min(PreviewLength, |content|)] + (if |content| > PreviewLength then Ellipsis else "")
  }

  /** The preview gives back the whole comment exactly when the comment
      fits, or when it is 63 characters whose last three are the ellipsis;
      a longer comment keeps its first 60 characters. */
  lemma {:induction false} PreviewIsFaithful(content: string)
    ensures ShortContent(content) == content <==>
      |content| <= PreviewLength
      || (|content| == PreviewLength + |Ellipsis| && content[PreviewLength..] == Ellipsis)
    ensures |content| > PreviewLength ==>
      ShortContent(content)[..PreviewLength] == content[..PreviewLength]
      && ShortContent(content)[PreviewLength..] == Ellipsis
  {
    if |content| > PreviewLength {
      var r := ShortContent(content);
      assert r[..PreviewLength] == content[..PreviewLength];
      if |content| == PreviewLength + |Ellipsis| && content[PreviewLength..] == Ellipsis {
        assert content == content[..PreviewLength] + content[PreviewLength..];
      }
    }
  }
}

=== FILE: age.dfy ===
/** The minimum-age rule for accounts (myauth/validators.py) and the
    account validation that applies it (src/myauth/models.py). The clock is a
    parameter: `today` stands for `date.today()`. */
module Age {
  import opened Wrappers

  /** A calendar date as Python's `date` holds it. */
  datatype Date = Date(year: int, month: int, day: int)

  const MinimumAge: int := 15
  const TooYoungMessage: string := "Vous devez avoir au moins 15 ans pour avoir un compte."
  const BirthDateRequiredMessage: string :=
    "La date de naissance est requise pour les utilisateurs non-staff"

  predicate IsLeapYear(y: int)
  {
    y % 4 == 0 && (y % 100 != 0 || y % 400 == 0)
  }

  function DaysInMonth(y: int, m: int): int
    requires 1 <= m <= 12
  {
    if m == 2 then (if IsLeapYear(y) then 29 else 28)
    else if m in {4, 6, 9, 11} then 30
    else 31
  }

  /** The dates Python's `date` accepts. */
  predicate ValidDate(d: Date)
  {
    1 <= d.year <= 9999 && 1 <= d.month <= 12 && 1 <= d.day <= DaysInMonth(d.year, d.month)
  }

  /** Python's tuple comparison `(m1, d1) < (m2, d2)`. */
  predicate MonthDayBefore(m1: int, d1: int, m2: int, d2: int)
  {
    m1 < m2 || (m1 == m2 && d1 < d2)
  }

  /** Lexicographic order on (year, month, day) triples, which need not be valid dates. */
  predicate OnOrBefore(a: Date, b: Date)
  {
    a.year < b.year || (a.year == b.year && !MonthDayBefore(b.month, b.day, a.month, a.day))
  }

  /** The n-th anniversary of a birth date has come by `today`. A 29 February
      anniversary in a non-leap year comes on 1 March. */
  predicate AnniversaryReached(dob: Date, n: int, today: Date)
  {
    OnOrBefore(Date(dob.year + n, dob.month, dob.day), today)
  }

  /** `today.year - dob.year - ((today.month, today.day) < (dob.month, dob.day))`:
      the number of completed years, that is the last anniversary reached. */
  function AgeOn(today: Date, dob: Date): (age: int)
    ensures AnniversaryReached(dob, age, today)
    ensures !AnniversaryReached(dob, age + 1, today)
  {
    today.year - dob.year - (if MonthDayBefore(today.month, today.day, dob.month, dob.day) then 1 else 0)
  }

  /** Any count of anniversaries reached by `today` is at most the age. */
  lemma AgeIsLargestReached(today: Date, dob: Date, n: int)
    requires AnniversaryReached(dob, n, today)
    ensures n <= AgeOn(today, dob)
  {
    if n > AgeOn(today, dob) {
      AnniversariesOrdered(dob, AgeOn(today, dob) + 1, n, today);
    }
  }

  /** Once an anniversary is reached, every earlier one is too. */
  lemma AnniversariesOrdered(dob: Date, m: int, n: int, today: Date)
    requires m <= n && AnniversaryReached(dob, n, today)
    ensures AnniversaryReached(dob, m, today)
  {
  }

  /** validate_age: an error exactly when the age is below fifteen. */
  function ValidateAge(today: Date, dob: Date): (r: Option<string>)
    ensures r.Some? <==> !AnniversaryReached(dob, MinimumAge, today)
    ensures r.Some? ==> r.value == TooYoungMessage
  {
    if AgeOn(today, dob) < MinimumAge then Some(TooYoungMessage) else None
  }

  /** An earlier birth date never yields a smaller age. */
  lemma AgeMonotone(today: Date, older: Date, younger: Date)
    requires OnOrBefore(older, younger)
    ensures AgeOn(today, older) >= AgeOn(today, younger)
  {
  }

  /** On the fifteenth birthday the date is accepted; on any earlier day of
      that year it is refused. */
  lemma FifteenthBirthday(dob: Date, today: Date)
    requires today.year == dob.year + MinimumAge
    ensures (today.month, today.day) == (dob.month, dob.day) ==> ValidateAge(today, dob).None?
    ensures MonthDayBefore(today.month, today.day, dob.month, dob.day) ==> ValidateAge(today, dob).Some?
  {
  }

  /** A 29 February birthday is not counted on 28 February of a non-leap
      year, and is counted on 1 March. */
  lemma LeapDayBirthday()
    ensures ValidDate(Date(2008, 2, 29)) && ValidDate(Date(2023, 2, 28)) && ValidDate(Date(2023, 3, 1))
    ensures ValidateAge(Date(2023, 2, 28), Date(2008, 2, 29)) == Some(TooYoungMessage)
    ensures ValidateAge(Date(2023, 3, 1), Date(2008, 2, 29)) == None
  {
  }

  /** The account fields User.clean reads. */
  datatype User = User(isStaff: bool, dateOfBirth: Option<Date>)

  /** User.clean: a missing birth date is refused first, for every user, staff
      or not; otherwise the age rule decides, with the same formula. */
  function Clean(user: User, today: Date): (r: Option<string>)
    ensures user.dateOfBirth.None? ==> r == Some(BirthDateRequiredMessage)
    ensures user.dateOfBirth.Some? ==>
      (r.Some? <==> !AnniversaryReached(user.dateOfBirth.value, MinimumAge, today))
    ensures r.Some? ==> r.value in {BirthDateRequiredMessage, TooYoungMessage}
    ensures user.dateOfBirth.Some? && r.Some? ==> r.value == TooYoungMessage
  {
    match user.dateOfBirth
    case None => Some(BirthDateRequiredMessage)
    case Some(dob) => ValidateAge(today, dob)
  }

  /** The staff flag plays no part in account validation. */
  lemma CleanIgnoresStaff(user: User, today: Date)
    ensures Clean(user, today) == Clean(user.(isStaff := !user.isStaff), today)
  {
  }
}

=== FILE: older.dfy ===
/** The earlier revision of the engine at the repository root
    (softdesk/views.py, softdesk/models.py, softdesk/permissions.py): its
    project policy with concrete author and contributor checks, its
    post-save receiver without a `created` guard, its store without
    uniqueness on projects and issues, and its contributor creation. */
module Older {
  import opened Wrappers
  import opened Accounts
  import opened Store
  import opened Policy
  import Views

  /** The framework's own denial text; this revision does not replace it. */
  const FrameworkDenialMessage: string := "You do not have permission to perform this action."

  /** IsProjectAuthor.has_object_permission: the caller is the object's author. */
  predicate IsProjectAuthor(user: RequestUser, project: Project)
  {
    IsUser(user, project.author)
  }

  /** IsProjectContributor.has_object_permission: the project has a
      contributor row whose user is the caller. */
  predicate IsProjectContributor(db: Db, user: RequestUser, pid: Id)
  {
    exists cid :: cid in db.contributors && db.contributors[cid].project == pid
      && IsUser(user, db.contributors[cid].user)
  }

  /** The contributor check reads the same set the membership index holds. */
  lemma ContributorCheckReadsIndex(db: Db, user: RequestUser, pid: Id)
    ensures IsProjectContributor(db, user, pid) <==>
      IsAuthenticated(user) && user.value.id in ContributorUsers(db, pid)
  {
    if IsAuthenticated(user) && user.value.id in ContributorUsers(db, pid) {
      var cid :| cid in db.contributors && db.contributors[cid].project == pid
        && db.contributors[cid].user == user.value.id;
      assert IsUser(user, db.contributors[cid].user);
    }
  }

  /** ProjectViewset.get_permissions, with `&` and `|` as boolean operators:
      author-or-admin for edits, author-or-contributor-or-admin for
      retrieval, login alone otherwise. */
  predicate ProjectAllows(action: Action, user: RequestUser, db: Db, target: (Id, Project))
  {
    var auth := IsAuthenticated(user);
    var admin := IsAdminAuthenticated(user);
    match action
    case Update => (auth && IsProjectAuthor(user, target.1)) || admin
    case PartialUpdate => (auth && IsProjectAuthor(user, target.1)) || admin
    case Destroy => (auth && IsProjectAuthor(user, target.1)) || admin
    case Retrieve =>
      (auth && IsProjectAuthor(user, target.1)) || (auth && IsProjectContributor(db, user, target.0)) || admin
    case _ => auth
  }

  /** The decision of this revision. The contributor, issue and comment
      viewsets keep the class-level [IsAuthenticated]; the project viewset
      checks the object the request names, which must exist. */
  function Decide(kind: Kind, action: Action, user: RequestUser, db: Db, target: Option<(Id, Project)>): (d: Decision)
    ensures !IsAuthenticated(user) ==> d == Unauthenticated
    ensures kind != ProjectKind || action in {List, Create} ==> (d == Allow <==> IsAuthenticated(user))
    ensures kind == ProjectKind && target.Some? ==>
      (d == Allow <==> ProjectAllows(action, user, db, target.value))
    ensures d.Denied? ==> d.message == FrameworkDenialMessage
  {
    if !IsAuthenticated(user) then Unauthenticated
    else if kind != ProjectKind || action in {List, Create} then Allow
    else match target
      case None => NotFound
      case Some(t) => if ProjectAllows(action, user, db, t) then Allow else Denied(FrameworkDenialMessage)
  }

  /** The current policy only ever narrows this revision's for contributor,
      issue and comment requests: whatever it allows, this one allowed. */
  lemma CurrentNarrowsOlder(kind: Kind, action: Action, user: RequestUser, facts: Facts, db: Db,
                            target: Option<(Id, Project)>)
    requires kind != ProjectKind
    ensures Policy.Decide(kind, action, user, facts) == Allow ==> Decide(kind, action, user, db, target) == Allow
  {
  }

  /** The opaque checks of the current revision answered the way this
      revision's concrete checks do. */
  function FactsOf(user: RequestUser, db: Db, target: (Id, Project)): Facts
  {
    var holds := (b: bool) => if b then Holds else Fails;
    Facts(holds(IsProjectAuthor(user, target.1)), holds(IsProjectAuthor(user, target.1)),
          holds(IsProjectContributor(db, user, target.0)), Fails)
  }

  /** On a store where every author is enrolled, the two revisions agree on
      every project request when the current checks behave like the older
      ones: the author disjunct of the older retrieval rule is subsumed by the
      contributor disjunct. */
  lemma ProjectPoliciesAgree(action: Action, user: RequestUser, db: Db, pid: Id)
    requires Valid(db) && pid in db.projects
    ensures var target := (pid, db.projects[pid]);
      (Policy.Decide(ProjectKind, action, user, FactsOf(user, db, target)) == Allow
       <==> Decide(ProjectKind, action, user, db, Some(target)) == Allow)
  {
    var target := (pid, db.projects[pid]);
    var facts := FactsOf(user, db, target);
    if IsAuthenticated(user) {
      DecideFollowsTable(ProjectKind, action, user, facts);
      if IsProjectAuthor(user, target.1) {
        var cid :| cid in db.contributors && db.contributors[cid] == Contributor(db.projects[pid].author, pid);
        assert IsUser(user, db.contributors[cid].user);
        assert IsProjectContributor(db, user, pid);
      }
    }
  }

  /** assign_contributor of this revision: a Contributor row for the author
      is saved after every Project save, created or not. */
  function AssignContributor(db: Db, pid: Id): Result<Db, DbError>
    requires pid in db.projects
  {
    InsertContributor(db, db.projects[pid].author, pid)
  }

  /** Re-saving an existing project (an update). The UPDATE runs first and
      post_save follows it, so the receiver's second enrolment comes after
      the new title and type are written. The first component is the store
      once the UPDATE is written, the second the receiver's outcome. */
  function ResaveProject(db: Db, pid: Id, title: string, kind: ProjectType): (r: (Db, Result<Db, DbError>))
    requires pid in db.projects
    ensures r.0.projects == db.projects[pid := Project(db.projects[pid].author, title, kind)]
    ensures r.0.contributors == db.contributors && r.0.issues == db.issues && r.0.comments == db.comments
    ensures r.1.Err? <==> IsEnrolled(db, db.projects[pid].author, pid)
    ensures r.1.Err? ==> r.1.error == IntegrityError
    ensures r.1.Ok? ==> (r.1.value.projects == r.0.projects
      && r.1.value.contributors == db.contributors[db.nextContributor := Contributor(db.projects[pid].author, pid)])
  {
    var saved := db.(projects := db.projects[pid := Project(db.projects[pid].author, title, kind)]);
    assert IsEnrolled(saved, saved.projects[pid].author, pid) <==> IsEnrolled(db, db.projects[pid].author, pid);
    (saved, AssignContributor(saved, pid))
  }

  /** While the author is still enrolled, every re-save of an existing
      project collides with the author's own Contributor row, which
      unique_contributor forbids; the UPDATE itself has been written by then. */
  lemma ResaveAlwaysConflicts(db: Db, pid: Id, title: string, kind: ProjectType)
    requires AuthorsEnrolled(db) && pid in db.projects
    ensures ResaveProject(db, pid, title, kind).1 == Err(IntegrityError)
    ensures ResaveProject(db, pid, title, kind).0.projects[pid].title == title
  {
    assert IsEnrolled(db, db.projects[pid].author, pid);
  }

  /** A concrete run: a project is created, then saved again unchanged; the
      second save fails. */
  lemma ResaveCounterexample()
    ensures var created := Store.CreateProject(Empty, 1, "SoftDesk", Backend);
      created.Ok? && ResaveProject(created.value.0, created.value.1, "SoftDesk", Backend).1 == Err(IntegrityError)
  {
    EmptyIsValid();
    var created := Store.CreateProject(Empty, 1, "SoftDesk", Backend);
    ResaveAlwaysConflicts(created.value.0, created.value.1, "SoftDesk", Backend);
  }

  /** Contributor deletion in this revision: the model has no delete guard,
      so any row goes, the author's own included. */
  function DeleteContributor(db: Db, cid: Id): (r: Db)
    requires cid in db.contributors
    ensures r.contributors.Keys == db.contributors.Keys - {cid}
    ensures forall c :: c in r.contributors ==> r.contributors[c] == db.contributors[c]
    ensures r.projects == db.projects && r.issues == db.issues && r.comments == db.comments
  {
    db.(contributors := db.contributors - {cid})
  }

  /** Removing a project author's row, which the current revision refuses,
      goes through here; once it is gone, a re-save of the project no longer
      collides. */
  lemma UnguardedRemovalLetsResaveSucceed(db: Db, cid: Id, title: string, kind: ProjectType)
    requires UniqueContributors(db) && cid in db.contributors
    requires var row := db.contributors[cid]; row.project in db.projects && row.user == db.projects[row.project].author
    ensures var pid := db.contributors[cid].project;
      && Store.DeleteContributor(db, cid) == Err(AuthorRemoval(AuthorRemovalMessage))
      && ResaveProject(DeleteContributor(db, cid), pid, title, kind).1.Ok?
  {
  }

  /** Creating a project in this revision: no unique_project, then the
      receiver. On a store whose keys are consistent the receiver's insert
      always succeeds. */
  function CreateProject(db: Db, author: UserId, title: string, kind: ProjectType): (r: Result<(Db, Id), DbError>)
    ensures r.Ok? ==> var (db', pid) := r.value;
      db'.projects == db.projects[pid := Project(author, title, kind)]
      && author in ContributorUsers(db', pid)
    ensures FreshCounters(db) && ForeignKeys(db) ==>
      && r.Ok? && r.value.1 !in db.projects
      && FreshCounters(r.value.0) && ForeignKeys(r.value.0)
  {
    var pid := db.nextProject;
    var saved := db.(projects := db.projects[pid := Project(author, title, kind)], nextProject := pid + 1);
    match AssignContributor(saved, pid)
    case Err(e) => Err(e)
    case Ok(db') =>
      assert db'.contributors[saved.nextContributor] == Contributor(author, pid);
      EnrolledIffListed(db', author, pid);
      Ok((db', pid))
  }

  /** Without unique_project, the same author may create two projects with
      one title. */
  lemma DuplicateProjectsAccepted(db: Db, author: UserId, title: string, kind: ProjectType)
    requires FreshCounters(db) && ForeignKeys(db)
    ensures var (db1, p1) := CreateProject(db, author, title, kind).value;
      var r := CreateProject(db1, author, title, kind);
      r.Ok? && p1 != r.value.1 && r.value.0.projects[p1] == r.value.0.projects[r.value.1]
  {
  }

  /** Saving an issue row in this revision: no unique_issue; the author
      column is NOT NULL, so a row without an author is refused; the status
      defaults to TO_DO as in the current one. */
  function CreateIssue(
    db: Db, author: Option<UserId>, pid: Id, title: string, assignedTo: Option<UserId>,
    priority: Option<IssuePriority>, issueType: Option<IssueType>, status: Option<IssueStatus>): (r: Result<(Db, Id), DbError>)
    ensures r.Err? <==> pid !in db.projects || author.None?
    ensures r.Err? ==> r.error == IntegrityError
    ensures r.Ok? ==> var (db', iid) := r.value;
      && db'.issues == db.issues[iid := Issue(author.value, pid, title, assignedTo, priority, issueType,
                                              if status.Some? then status.value else ToDo)]
      && db'.nextIssue == iid + 1
      && db'.projects == db.projects && db'.contributors == db.contributors && db'.comments == db.comments
  {
    if pid !in db.projects || author.None? then Err(IntegrityError)
    else
      var iid := db.nextIssue;
      var row := Issue(author.value, pid, title, assignedTo, priority, issueType,
                       match status case Some(s) => s case None => ToDo);
      Ok((db.(issues := db.issues[iid := row], nextIssue := iid + 1), iid))
  }

  /** Two issues with the same author, project and title are both accepted. */
  lemma DuplicateIssuesAccepted(db: Db, author: UserId, pid: Id, title: string)
    requires pid in db.projects
    ensures var (db1, i1) := CreateIssue(db, Some(author), pid, title, None, None, None, None).value;
      var r := CreateIssue(db1, Some(author), pid, title, None, None, None, None);
      r.Ok? && r.value.1 != i1 && r.value.0.issues[i1] == r.value.0.issues[r.value.1]
  {
  }

  /** IssueViewset.perform_create of this revision: the project of the path
      is fetched (an uncaught DoesNotExist when it is missing) and the row
      saved with that project and the validated fields, none of which is the
      author. */
  function PerformCreateIssue(
    db: Db, projectPk: Id, title: string, assignedTo: Option<UserId>,
    priority: Option<IssuePriority>, issueType: Option<IssueType>, status: Option<IssueStatus>): (r: Views.CreateOutcome)
    ensures r.ServerError?
  {
    if projectPk !in db.projects then Views.ServerError
    else
      match CreateIssue(db, None, projectPk, title, assignedTo, priority, issueType, status)
      case Ok((db', _)) => Views.Created(db')
      case Err(_) => Views.ServerError
  }

  /** No issue is ever created through this revision's view, where the
      current one, which passes the caller as author, creates it whenever the
      project exists and the title is free. */
  lemma IssueCreationNeverStores(
    db: Db, projectPk: Id, user: UserId, title: string, assignedTo: Option<UserId>,
    priority: Option<IssuePriority>, issueType: Option<IssueType>, status: Option<IssueStatus>)
    ensures PerformCreateIssue(db, projectPk, title, assignedTo, priority, issueType, status) == Views.ServerError
    ensures Views.PerformCreateIssue(db, projectPk, user, title, assignedTo, priority, issueType, status).Created?
      <==> projectPk in db.projects && !IssueTitleTaken(db, user, projectPk, title)
  {
  }

  /** Saving a comment row in this revision: as for issues, the author
      column is NOT NULL. */
  function CreateComment(db: Db, uuid: Id, author: Option<UserId>, iid: Id, content: string): (r: Result<Db, DbError>)
    ensures r.Err? <==> iid !in db.issues || uuid in db.comments || author.None?
    ensures r.Ok? ==> r.value.comments == db.comments[uuid := Comment(author.value, iid, content)]
  {
    if iid !in db.issues || uuid in db.comments || author.None? then Err(IntegrityError)
    else Ok(db.(comments := db.comments[uuid := Comment(author.value, iid, content)]))
  }

  /** CommentViewset.perform_create of this revision: the issue of the path
      is fetched and the row saved with that issue alone. */
  function PerformCreateComment(db: Db, issuePk: Id, uuid: Id, content: string): (r: Views.CreateOutcome)
    ensures r.ServerError?
  {
    if issuePk !in db.issues then Views.ServerError
    else
      match CreateComment(db, uuid, None, issuePk, content)
      case Ok(db') => Views.Created(db')
      case Err(_) => Views.ServerError
  }

  /** No comment is ever created through this revision's view, where the
      current one stores it under the caller whenever the issue exists and
      the key is free. */
  lemma CommentCreationNeverStores(db: Db, issuePk: Id, uuid: Id, user: UserId, content: string)
    ensures PerformCreateComment(db, issuePk, uuid, content) == Views.ServerError
    ensures Views.PerformCreateComment(db, issuePk, uuid, user, content).Created?
      <==> issuePk in db.issues && uuid !in db.comments
  {
  }

  /** ContributorViewset.perform_create of this revision: it catches the
      sqlite3 driver's IntegrityError, while the ORM raises its own
      django.db IntegrityError, so a duplicate reaches the client as a server
      error. */
  function PerformCreateContributor(db: Db, projectPk: Id, user: UserId): (r: Views.CreateOutcome)
    ensures !r.ValidationError?
    ensures r.ServerError? <==> projectPk !in db.projects || IsEnrolled(db, user, projectPk)
  {
    if projectPk !in db.projects then Views.ServerError
    else
      match InsertContributor(db, user, projectPk)
      case Ok(db') => Views.Created(db')
      case Err(_) => Views.ServerError
  }

  /** Re-adding the author of a fresh project: this revision answers with a
      server error where the current one answers with the duplicate message. */
  lemma DuplicateContributorCounterexample()
    ensures var created := Store.CreateProject(Empty, 1, "SoftDesk", Backend);
      && created.Ok?
      && PerformCreateContributor(created.value.0, created.value.1, 1) == Views.ServerError
      && Views.PerformCreateContributor(created.value.0, created.value.1, 1)
           == Views.ValidationError(Views.DuplicateContributorMessage)
  {
    EmptyIsValid();
    var created := Store.CreateProject(Empty, 1, "SoftDesk", Backend);
    var (db, pid) := created.value;
    EnrolledIffListed(db, 1, pid);
  }

  /** The serializer classes of this revision. */
  datatype OldSerializer =
    | Listing(kind: Kind) | Detail(kind: Kind) | Creation(kind: Kind) | Updating(kind: Kind)

  /** UtilityViewSet.get_serializer_class over this revision's maps, which
      have no tuple keys; the contributor map has no update entries, and
      destroy is in no map, so both fall back to serializer_class, the list
      serializer of every viewset. */
  function SerializerClass(kind: Kind, action: Action): (s: OldSerializer)
    ensures action == List ==> s == Listing(kind)
    ensures action == Retrieve ==> s == Detail(kind)
    ensures action == Create ==> s == Creation(kind)
    ensures action == Update || action == PartialUpdate ==>
      s == (if kind == ContributorKind then Listing(kind) else Updating(kind))
    ensures action == Destroy ==> s == Listing(kind)
  {
    var m := map[List := Listing(kind), Retrieve := Detail(kind), Create := Creation(kind)];
    var m' := if kind == ContributorKind then m else m[Update := Updating(kind)][PartialUpdate := Updating(kind)];
    if action in m' then m'[action] else Listing(kind)
  }

  /** The current revision's serializer for what this revision's was: its
      create and update serializers became one post serializer. */
  function Successor(s: OldSerializer): Serializer
  {
    match s
    case Listing(k) => ListSerializer(k)
    case Detail(k) => DetailSerializer(k)
    case Creation(k) => PostSerializer(k)
    case Updating(k) => PostSerializer(k)
  }

  /** The two revisions dispatch every action of every viewset the same way,
      up to the merge of create and update serializers; the tuple key of the
      current maps changed nothing else. */
  lemma SerializerRevisionsAgree(kind: Kind, action: Action)
    ensures Policy.SerializerClass(kind, action) == Successor(SerializerClass(kind, action))
  {
    if action in {Update, PartialUpdate} {
      UpdateSerializersAgree(kind);
    } else {
      SerializerDispatch(kind, action);
    }
  }
}

=== FILE: policy.dfy ===
/** Permission resolution of the current revision (src/softdesk/views.py):
    the per-viewset permission tables, their normalisation, the list of
    permission classes a request is checked against, and the decision. */
module Policy {
  import opened Wrappers
  import opened Accounts
  import opened TupleKeys

  /** The four resource viewsets. */
  datatype Kind = ProjectKind | ContributorKind | IssueKind | CommentKind

  /** The ModelViewSet actions. */
  datatype Action = List | Retrieve | Create | Update | PartialUpdate | Destroy

  /** The capability checks a table entry combines with `|`. */
  datatype Check = ProjectContributor | ProjectAuthor | ResourceAuthor | UserContributor | AdminAuthenticated

  /** One permission class of the list: IsAuthenticated, or an OR of checks. */
  datatype Permission = Authenticated | AnyOf(alternatives: seq<Check>)

  /** The outcome of one of the checks whose code is not part of this model:
      it holds, it fails, or it raised NotFound because the project it needs
      does not exist. */
  datatype Verdict = Holds | Fails | ProjectMissing

  /** What the four opaque checks answer for the request at hand. */
  datatype Facts = Facts(resourceAuthor: Verdict, projectAuthor: Verdict,
                         projectContributor: Verdict, userContributor: Verdict)

  datatype Decision = Unauthenticated | NotFound | Denied(message: string) | Allow | MethodNotAllowed

  /** The one message permission_denied sends, whichever rule failed. */
  const DenialMessage: string := "Vous n'avez pas la permission d'accéder à cette ressource."

  const ContributorOrAdmin: Permission := AnyOf([ProjectContributor, AdminAuthenticated])

  /** permission_map as each viewset declares it, tuple keys included. */
  function DeclaredPermissionMap(kind: Kind): seq<(DictKey<Action>, seq<Permission>)>
  {
    match kind
    case ProjectKind => [
      (Single(Retrieve), [AnyOf([ProjectContributor, AdminAuthenticated])]),
      (Tuple([Update, PartialUpdate, Destroy]), [AnyOf([ResourceAuthor, AdminAuthenticated])])]
    case ContributorKind => [
      (Single(Create), [AnyOf([ProjectAuthor, AdminAuthenticated])]),
      (Single(Destroy), [AnyOf([UserContributor, ProjectAuthor, AdminAuthenticated])])]
    case IssueKind | CommentKind => [
      (Tuple([Update, PartialUpdate]), [AnyOf([ResourceAuthor, AdminAuthenticated])]),
      (Single(Destroy), [AnyOf([ResourceAuthor, ProjectAuthor, AdminAuthenticated])])]
  }

  /** default_permissions: left empty by the project viewset. */
  function DefaultPermissions(kind: Kind): seq<Permission>
  {
    if kind == ProjectKind then [] else [ContributorOrAdmin]
  }

  /** The table after __init_subclass__ expanded its tuple keys. */
  function PermissionMap(kind: Kind): map<Action, seq<Permission>>
  {
    Flatten(DeclaredPermissionMap(kind))
  }

  const AuthorOrAdmin: seq<Permission> := [AnyOf([ResourceAuthor, AdminAuthenticated])]

  /** The expanded project table: each member of the tuple key received the
      tuple's list. */
  lemma ExpandedProjectMap()
    ensures PermissionMap(ProjectKind) == map[
      Retrieve := [ContributorOrAdmin], Update := AuthorOrAdmin,
      PartialUpdate := AuthorOrAdmin, Destroy := AuthorOrAdmin]
  {
    var p := DeclaredPermissionMap(ProjectKind);
    FlattenLiteral(p[0], p[1]);
    WriteSingle(map[], Retrieve, [ContributorOrAdmin]);
    var m0: map<Action, seq<Permission>> := map[Retrieve := [ContributorOrAdmin]];
    var m1 := m0[Update := AuthorOrAdmin];
    var m2 := m1[PartialUpdate := AuthorOrAdmin];
    var m3 := m2[Destroy := AuthorOrAdmin];
    WriteTuple(m0, [Update, PartialUpdate, Destroy], AuthorOrAdmin);
    assert [Update, PartialUpdate, Destroy][1..] == [PartialUpdate, Destroy];
    WriteTuple(m1, [PartialUpdate, Destroy], AuthorOrAdmin);
    assert [PartialUpdate, Destroy][1..] == [Destroy];
    WriteTuple(m2, [Destroy], AuthorOrAdmin);
    assert [Destroy][1..] == [];
    WriteTuple(m3, [], AuthorOrAdmin);
  }

  /** The expanded contributor table. */
  lemma ExpandedContributorMap()
    ensures PermissionMap(ContributorKind) == map[
      Create := [AnyOf([ProjectAuthor, AdminAuthenticated])],
      Destroy := [AnyOf([UserContributor, ProjectAuthor, AdminAuthenticated])]]
  {
    var c := DeclaredPermissionMap(ContributorKind);
    FlattenLiteral(c[0], c[1]);
    WriteSingle(map[], Create, c[0].1);
    WriteSingle(map[Create := c[0].1], Destroy, c[1].1);
  }

  /** The expanded table the issue and comment viewsets share. */
  lemma ExpandedIssueMap(kind: Kind)
    requires kind in {IssueKind, CommentKind}
    ensures PermissionMap(kind) == map[
      Update := AuthorOrAdmin, PartialUpdate := AuthorOrAdmin,
      Destroy := [AnyOf([ResourceAuthor, ProjectAuthor, AdminAuthenticated])]]
  {
    var i := DeclaredPermissionMap(kind);
    FlattenLiteral(i[0], i[1]);
    var e: map<Action, seq<Permission>> := map[];
    var m1 := e[Update := AuthorOrAdmin];
    var m2 := m1[PartialUpdate := AuthorOrAdmin];
    WriteTuple(e, [Update, PartialUpdate], AuthorOrAdmin);
    assert [Update, PartialUpdate][1..] == [PartialUpdate];
    WriteTuple(m1, [PartialUpdate], AuthorOrAdmin);
    assert [PartialUpdate][1..] == [];
    WriteTuple(m2, [], AuthorOrAdmin);
    WriteSingle(m2, Destroy, i[1].1);
  }

  /** get_permissions: IsAuthenticated first, then exactly one of the
      action's table entry or the viewset's default list. */
  function GetPermissions(kind: Kind, action: Action): (r: seq<Permission>)
    ensures |r| >= 1 && r[0] == Authenticated
    ensures action in PermissionMap(kind) ==> r[1..] == PermissionMap(kind)[action]
    ensures action !in PermissionMap(kind) ==> r[1..] == DefaultPermissions(kind)
  {
    var m := PermissionMap(kind);
    [Authenticated] + (if action in m then m[action] else DefaultPermissions(kind))
  }

  /** The resolved lists, written out. */
  lemma ResolvedPermissions(kind: Kind, action: Action)
    ensures GetPermissions(kind, action) == [Authenticated] + RequiredBeyondLogin(kind, action)
  {
    match kind {
      case ProjectKind => ResolvedProjectPermissions(action);
      case ContributorKind => ResolvedContributorPermissions(action);
      case _ => ResolvedIssuePermissions(kind, action);
    }
  }

  lemma ResolvedProjectPermissions(action: Action)
    ensures GetPermissions(ProjectKind, action) == [Authenticated] + RequiredBeyondLogin(ProjectKind, action)
  {
    ExpandedProjectMap();
  }

  lemma ResolvedContributorPermissions(action: Action)
    ensures GetPermissions(ContributorKind, action) == [Authenticated] + RequiredBeyondLogin(ContributorKind, action)
  {
    ExpandedContributorMap();
  }

  lemma ResolvedIssuePermissions(kind: Kind, action: Action)
    requires kind in {IssueKind, CommentKind}
    ensures GetPermissions(kind, action) == [Authenticated] + RequiredBeyondLogin(kind, action)
  {
    ExpandedIssueMap(kind);
  }

  /** The permission classes beyond IsAuthenticated, action by action, as
      the viewsets document them. */
  function RequiredBeyondLogin(kind: Kind, action: Action): seq<Permission>
  {
    match (kind, action)
    case (ProjectKind, Retrieve) => [AnyOf([ProjectContributor, AdminAuthenticated])]
    case (ProjectKind, Update) => [AnyOf([ResourceAuthor, AdminAuthenticated])]
    case (ProjectKind, PartialUpdate) => [AnyOf([ResourceAuthor, AdminAuthenticated])]
    case (ProjectKind, Destroy) => [AnyOf([ResourceAuthor, AdminAuthenticated])]
    case (ProjectKind, _) => []
    case (ContributorKind, Create) => [AnyOf([ProjectAuthor, AdminAuthenticated])]
    case (ContributorKind, Destroy) => [AnyOf([UserContributor, ProjectAuthor, AdminAuthenticated])]
    case (ContributorKind, _) => [ContributorOrAdmin]
    case (_, Update) => [AnyOf([ResourceAuthor, AdminAuthenticated])]
    case (_, PartialUpdate) => [AnyOf([ResourceAuthor, AdminAuthenticated])]
    case (_, Destroy) => [AnyOf([ResourceAuthor, ProjectAuthor, AdminAuthenticated])]
    case (_, _) => [ContributorOrAdmin]
  }

  /** One check. The admin check is IsAdminAuthenticated; the others are
      answered by the facts of the request. */
  function EvalCheck(c: Check, user: RequestUser, facts: Facts): (v: Verdict)
    ensures c == AdminAuthenticated ==> (v == Holds <==> IsAdminAuthenticated(user)) && v != ProjectMissing
  {
    match c
    case AdminAuthenticated => if IsAdminAuthenticated(user) then Holds else Fails
    case ResourceAuthor => facts.resourceAuthor
    case ProjectAuthor => facts.projectAuthor
    case ProjectContributor => facts.projectContributor
    case UserContributor => facts.userContributor
  }

  /** A `|` chain, evaluated left to right like Python's `or`: the first
      check that holds ends it, and a NotFound raised on the way propagates. */
  function EvalAnyOf(cs: seq<Check>, user: RequestUser, facts: Facts): (v: Verdict)
    ensures v == Fails <==> forall i :: 0 <= i < |cs| ==> EvalCheck(cs[i], user, facts) == Fails
    ensures v == Holds <==> exists i :: 0 <= i < |cs| && EvalCheck(cs[i], user, facts) == Holds
                                 && forall j :: 0 <= j < i ==> EvalCheck(cs[j], user, facts) == Fails
    ensures v == ProjectMissing ==> exists i :: 0 <= i < |cs| && EvalCheck(cs[i], user, facts) == ProjectMissing
    ensures (forall i :: 0 <= i < |cs| ==> EvalCheck(cs[i], user, facts) != ProjectMissing) ==>
      (v == Holds <==> exists i :: 0 <= i < |cs| && EvalCheck(cs[i], user, facts) == Holds)
  {
    if |cs| == 0 then Fails
    else
      match EvalCheck(cs[0], user, facts)
      case Fails =>
        var rest := EvalAnyOf(cs[1..], user, facts);
        assert forall i :: 1 <= i < |cs| ==> cs[i] == cs[1..][i - 1];
        rest
      case v => v
  }

  /** permission_denied: a caller who is not authenticated is asked to
      authenticate, anyone else receives the fixed message. */
  function PermissionDenied(user: RequestUser): Decision
  {
    if IsAuthenticated(user) then Denied(DenialMessage) else Unauthenticated
  }

  /** The outcome of one permission class. */
  function EvalPermission(p: Permission, user: RequestUser, facts: Facts): Verdict
  {
    match p
    case Authenticated => if IsAuthenticated(user) then Holds else Fails
    case AnyOf(cs) => EvalAnyOf(cs, user, facts)
  }

  /** check_permissions: the classes in order; the first that does not hold
      ends the check. */
  function CheckPermissions(perms: seq<Permission>, user: RequestUser, facts: Facts): (d: Decision)
    ensures d == Allow <==> forall i :: 0 <= i < |perms| ==> EvalPermission(perms[i], user, facts) == Holds
    ensures d.Denied? ==> d.message == DenialMessage && IsAuthenticated(user)
    ensures d == Unauthenticated ==> !IsAuthenticated(user)
    ensures d != MethodNotAllowed
  {
    if |perms| == 0 then Allow
    else
      match EvalPermission(perms[0], user, facts)
      case Holds =>
        var rest := CheckPermissions(perms[1..], user, facts);
        assert forall i :: 1 <= i < |perms| ==> perms[i] == perms[1..][i - 1];
        rest
      case Fails => PermissionDenied(user)
      case ProjectMissing => NotFound
  }

  /** The authorization decision for one request. */
  function Decide(kind: Kind, action: Action, user: RequestUser, facts: Facts): (d: Decision)
    ensures d == Unauthenticated <==> !IsAuthenticated(user)
    ensures d.Denied? ==> d.message == DenialMessage && IsAuthenticated(user)
    ensures d != MethodNotAllowed
  {
    CheckPermissions(GetPermissions(kind, action), user, facts)
  }

  /** permission_denied answers the same way whichever class failed: two
      refusals of one caller, on any viewsets, actions and facts, are the
      same response, NotAuthenticated for an anonymous caller and the one
      fixed message for anyone else. */
  lemma DenialsAreUniform(k1: Kind, a1: Action, f1: Facts, k2: Kind, a2: Action, f2: Facts, user: RequestUser)
    requires Decide(k1, a1, user, f1) == Unauthenticated || Decide(k1, a1, user, f1).Denied?
    requires Decide(k2, a2, user, f2) == Unauthenticated || Decide(k2, a2, user, f2).Denied?
    ensures Decide(k1, a1, user, f1) == Decide(k2, a2, user, f2)
    ensures Decide(k1, a1, user, f1) == if IsAuthenticated(user) then Denied(DenialMessage) else Unauthenticated
  {
  }

  /** The decision once the list is resolved: the login check, then at most
      one OR of checks. */
  lemma DecideUnfolded(kind: Kind, action: Action, user: RequestUser, facts: Facts)
    ensures var extra := RequiredBeyondLogin(kind, action);
      |extra| <= 1 && (|extra| == 1 ==> extra[0].AnyOf?)
      && Decide(kind, action, user, facts) ==
        if !IsAuthenticated(user) then Unauthenticated
        else if |extra| == 0 then Allow
        else match EvalAnyOf(extra[0].alternatives, user, facts)
             case Holds => Allow
             case Fails => Denied(DenialMessage)
             case ProjectMissing => NotFound
  {
    ResolvedPermissions(kind, action);
    var extra := RequiredBeyondLogin(kind, action);
    var perms := [Authenticated] + extra;
    if IsAuthenticated(user) {
      assert EvalPermission(perms[0], user, facts) == Holds;
      assert CheckPermissions(perms, user, facts) == CheckPermissions(perms[1..], user, facts);
      if |extra| == 1 {
        assert perms[1..] == extra;
        assert extra[1..] == [];
        assert CheckPermissions(extra[1..], user, facts) == Allow;
      } else {
        assert perms[1..] == [];
      }
    }
  }

  /** No opaque check raised NotFound. */
  predicate Resolved(facts: Facts)
  {
    facts.resourceAuthor != ProjectMissing && facts.projectAuthor != ProjectMissing
    && facts.projectContributor != ProjectMissing && facts.userContributor != ProjectMissing
  }

  /** The policy table of the API, written as boolean formulas. */
  predicate TableAllows(kind: Kind, action: Action, user: RequestUser, facts: Facts)
  {
    var admin := IsAdminAuthenticated(user);
    var resourceAuthor := facts.resourceAuthor == Holds;
    var projectAuthor := facts.projectAuthor == Holds;
    var contributor := facts.projectContributor == Holds;
    var self := facts.userContributor == Holds;
    match kind
    case ProjectKind =>
      (match action
       case List => true
       case Create => true
       case Retrieve => contributor || admin
       case _ => resourceAuthor || admin)
    case ContributorKind =>
      (match action
       case Create => projectAuthor || admin
       case Destroy => self || projectAuthor || admin
       case _ => contributor || admin)
    case _ =>
      (match action
       case Update => resourceAuthor || admin
       case PartialUpdate => resourceAuthor || admin
       case Destroy => resourceAuthor || projectAuthor || admin
       case _ => contributor || admin)
  }

  /** An OR of checks none of which raised NotFound holds exactly when one
      of them holds. */
  lemma AnyOfResolved(cs: seq<Check>, user: RequestUser, facts: Facts)
    requires Resolved(facts)
    ensures EvalAnyOf(cs, user, facts) == if exists c :: c in cs && EvalCheck(c, user, facts) == Holds then Holds else Fails
  {
    assert forall i :: 0 <= i < |cs| ==> EvalCheck(cs[i], user, facts) != ProjectMissing;
    if exists c :: c in cs && EvalCheck(c, user, facts) == Holds {
      var c :| c in cs && EvalCheck(c, user, facts) == Holds;
      var i :| 0 <= i < |cs| && cs[i] == c;
    }
  }

  /** For an authenticated caller whose checks all resolved, the decision is
      the table's: allowed exactly when the table allows, denied with the
      fixed message otherwise. */
  lemma DecideFollowsTable(kind: Kind, action: Action, user: RequestUser, facts: Facts)
    requires IsAuthenticated(user) && Resolved(facts)
    ensures Decide(kind, action, user, facts) ==
      (if TableAllows(kind, action, user, facts) then Allow else Denied(DenialMessage))
  {
    DecideUnfolded(kind, action, user, facts);
    var extra := RequiredBeyondLogin(kind, action);
    TableMatchesChecks(kind, action, user, facts);
    if |extra| == 1 {
      AnyOfResolved(extra[0].alternatives, user, facts);
      assert SomeHolds(extra[0].alternatives, user, facts) <==>
        exists c :: c in extra[0].alternatives && EvalCheck(c, user, facts) == Holds;
    }
  }

  /** Some check of an OR holds. */
  predicate SomeHolds(cs: seq<Check>, user: RequestUser, facts: Facts)
  {
    exists c :: c in cs && EvalCheck(c, user, facts) == Holds
  }

  /** The table and the declared checks say the same thing: an action with
      no check beyond login is always allowed, and otherwise the table allows
      exactly when one of the OR's checks holds. */
  lemma TableMatchesChecks(kind: Kind, action: Action, user: RequestUser, facts: Facts)
    ensures var extra := RequiredBeyondLogin(kind, action);
      && (|extra| == 0 ==> TableAllows(kind, action, user, facts))
      && (|extra| == 1 ==> (extra[0].AnyOf? &&
            (TableAllows(kind, action, user, facts) <==> SomeHolds(extra[0].alternatives, user, facts))))
  {
    match kind {
      case ProjectKind => ProjectTableMatches(action, user, facts);
      case ContributorKind => ContributorTableMatches(action, user, facts);
      case _ => PostTableMatches(kind, action, user, facts);
    }
  }

  lemma ProjectTableMatches(action: Action, user: RequestUser, facts: Facts)
    ensures var extra := RequiredBeyondLogin(ProjectKind, action);
      && (|extra| == 0 ==> TableAllows(ProjectKind, action, user, facts))
      && (|extra| == 1 ==> (extra[0].AnyOf? &&
            (TableAllows(ProjectKind, action, user, facts) <==> SomeHolds(extra[0].alternatives, user, facts))))
  {
    match action {
      case Retrieve => SomeHoldsPair(ProjectContributor, AdminAuthenticated, user, facts);
      case Update => SomeHoldsPair(ResourceAuthor, AdminAuthenticated, user, facts);
      case PartialUpdate => SomeHoldsPair(ResourceAuthor, AdminAuthenticated, user, facts);
      case Destroy => SomeHoldsPair(ResourceAuthor, AdminAuthenticated, user, facts);
      case _ =>
    }
  }

  lemma ContributorTableMatches(action: Action, user: RequestUser, facts: Facts)
    ensures var extra := RequiredBeyondLogin(ContributorKind, action);
      && (|extra| == 0 ==> TableAllows(ContributorKind, action, user, facts))
      && (|extra| == 1 ==> (extra[0].AnyOf? &&
            (TableAllows(ContributorKind, action, user, facts) <==> SomeHolds(extra[0].alternatives, user, facts))))
  {
    match action {
      case Create => SomeHoldsPair(ProjectAuthor, AdminAuthenticated, user, facts);
      case Destroy => SomeHoldsTriple(UserContributor, ProjectAuthor, AdminAuthenticated, user, facts);
      case _ => SomeHoldsPair(ProjectContributor, AdminAuthenticated, user, facts);
    }
  }

  lemma PostTableMatches(kind: Kind, action: Action, user: RequestUser, facts: Facts)
    requires kind in {IssueKind, CommentKind}
    ensures var extra := RequiredBeyondLogin(kind, action);
      && (|extra| == 0 ==> TableAllows(kind, action, user, facts))
      && (|extra| == 1 ==> (extra[0].AnyOf? &&
            (TableAllows(kind, action, user, facts) <==> SomeHolds(extra[0].alternatives, user, facts))))
  {
    match action {
      case Update => SomeHoldsPair(ResourceAuthor, AdminAuthenticated, user, facts);
      case PartialUpdate => SomeHoldsPair(ResourceAuthor, AdminAuthenticated, user, facts);
      case Destroy => SomeHoldsTriple(ResourceAuthor, ProjectAuthor, AdminAuthenticated, user, facts);
      case _ => SomeHoldsPair(ProjectContributor, AdminAuthenticated, user, facts);
    }
  }

  lemma SomeHoldsPair(a: Check, b: Check, user: RequestUser, facts: Facts)
    ensures SomeHolds([a, b], user, facts) <==> EvalCheck(a, user, facts) == Holds || EvalCheck(b, user, facts) == Holds
  {
    assert [a, b][0] == a && [a, b][1] == b;
  }

  lemma SomeHoldsTriple(a: Check, b: Check, c: Check, user: RequestUser, facts: Facts)
    ensures SomeHolds([a, b, c], user, facts) <==>
      EvalCheck(a, user, facts) == Holds || EvalCheck(b, user, facts) == Holds || EvalCheck(c, user, facts) == Holds
  {
    assert [a, b, c][0] == a && [a, b, c][1] == b && [a, b, c][2] == c;
  }

  /** An authenticated superuser is allowed everything, unless a check placed
      before the admin check raised NotFound. */
  lemma AdminOverride(kind: Kind, action: Action, user: RequestUser, facts: Facts)
    requires IsAdminAuthenticated(user)
    ensures Decide(kind, action, user, facts) in {Allow, NotFound}
    ensures Resolved(facts) ==> Decide(kind, action, user, facts) == Allow
  {
    DecideUnfolded(kind, action, user, facts);
    ChecksBracketed(kind, action);
    var extra := RequiredBeyondLogin(kind, action);
    if |extra| == 1 {
      var cs := extra[0].alternatives;
      assert EvalCheck(cs[|cs| - 1], user, facts) == Holds;
    }
    if Resolved(facts) {
      DecideFollowsTable(kind, action, user, facts);
    }
  }

  /** When every abstract check reports NotFound, as it would for a missing
      project, the answer is NotFound, never a denial, for every caller,
      admins included: each OR puts a check other than the admin check
      first, so the NotFound propagates before the admin check is reached.
      Project listing and creation consult no check and are allowed. */
  lemma MissingProjectIsNotFound(kind: Kind, action: Action, user: RequestUser)
    requires IsAuthenticated(user)
    ensures var d := Decide(kind, action, user, Facts(ProjectMissing, ProjectMissing, ProjectMissing, ProjectMissing));
      if kind == ProjectKind && action in {List, Create} then d == Allow else d == NotFound
  {
    var facts := Facts(ProjectMissing, ProjectMissing, ProjectMissing, ProjectMissing);
    DecideUnfolded(kind, action, user, facts);
    ChecksBracketed(kind, action);
    var extra := RequiredBeyondLogin(kind, action);
    if |extra| == 1 {
      var cs := extra[0].alternatives;
      assert EvalCheck(cs[0], user, facts) == ProjectMissing;
    }
  }

  /** Every declared OR starts with a check other than the admin check and
      ends with the admin check; only project listing and creation declare
      none. */
  lemma ChecksBracketed(kind: Kind, action: Action)
    ensures var extra := RequiredBeyondLogin(kind, action);
      && (|extra| == 0 <==> kind == ProjectKind && action in {List, Create})
      && (|extra| == 1 ==> (var cs := extra[0].alternatives;
            |cs| >= 2 && cs[0] != AdminAuthenticated && cs[|cs| - 1] == AdminAuthenticated))
  {
  }

  /** Project requests from an authenticated user who is not an admin:
      retrieval needs contributorship, edits need authorship, listing and
      creation need nothing more. */
  lemma ProjectScenario(user: RequestUser, facts: Facts)
    requires IsAuthenticated(user) && Resolved(facts) && !IsAdminAuthenticated(user)
    ensures Decide(ProjectKind, Retrieve, user, facts) == Allow <==> facts.projectContributor == Holds
    ensures Decide(ProjectKind, Update, user, facts) == Allow <==> facts.resourceAuthor == Holds
    ensures Decide(ProjectKind, List, user, facts) == Allow && Decide(ProjectKind, Create, user, facts) == Allow
  {
    DecideFollowsTable(ProjectKind, Retrieve, user, facts);
    DecideFollowsTable(ProjectKind, Update, user, facts);
    DecideFollowsTable(ProjectKind, List, user, facts);
    DecideFollowsTable(ProjectKind, Create, user, facts);
  }

  /** The HTTP methods a viewset serves: the contributor viewset offers no
      PUT or PATCH. */
  predicate Exposed(kind: Kind, action: Action)
  {
    !(kind == ContributorKind && action in {Update, PartialUpdate})
  }

  /** A request as dispatched: permissions are checked first, and a method
      the viewset does not serve is refused afterwards. */
  function Handle(kind: Kind, action: Action, user: RequestUser, facts: Facts): (d: Decision)
    ensures d == Allow <==> Decide(kind, action, user, facts) == Allow && Exposed(kind, action)
    ensures d == MethodNotAllowed <==> Decide(kind, action, user, facts) == Allow && !Exposed(kind, action)
    ensures d != Allow && d != MethodNotAllowed ==> d == Decide(kind, action, user, facts)
  {
    var d := Decide(kind, action, user, facts);
    if d == Allow && !Exposed(kind, action) then MethodNotAllowed else d
  }

  /** No one, admin included, updates a contributor row. */
  lemma ContributorsAreNotEditable(action: Action, user: RequestUser, facts: Facts)
    requires action in {Update, PartialUpdate}
    ensures Handle(ContributorKind, action, user, facts) != Allow
  {
  }

  /** The serializer classes, per viewset. */
  datatype Serializer = ListSerializer(kind: Kind) | DetailSerializer(kind: Kind) | PostSerializer(kind: Kind)

  /** serializer_map as each viewset declares it. */
  function DeclaredSerializerMap(kind: Kind): seq<(DictKey<Action>, Serializer)>
  {
    if kind == ContributorKind then
      [(Single(List), ListSerializer(kind)), (Single(Retrieve), DetailSerializer(kind)),
       (Single(Create), PostSerializer(kind))]
    else
      [(Single(List), ListSerializer(kind)), (Single(Retrieve), DetailSerializer(kind)),
       (Tuple([Create, Update, PartialUpdate]), PostSerializer(kind))]
  }

  /** The expanded serializer map of the contributor viewset. */
  lemma ExpandedContributorSerializers()
    ensures Flatten(DeclaredSerializerMap(ContributorKind)) == map[
      List := ListSerializer(ContributorKind), Retrieve := DetailSerializer(ContributorKind),
      Create := PostSerializer(ContributorKind)]
  {
    var kind := ContributorKind;
    var d := DeclaredSerializerMap(kind);
    FlattenLiteral3(d[0], d[1], d[2]);
    WriteSingle(map[], List, ListSerializer(kind));
    var m1 := map[List := ListSerializer(kind)];
    WriteSingle(m1, Retrieve, DetailSerializer(kind));
    WriteSingle(m1[Retrieve := DetailSerializer(kind)], Create, PostSerializer(kind));
  }

  /** The expanded serializer maps of the other viewsets: the tuple key gave
      create, update and partial_update the same post serializer. */
  lemma ExpandedPostSerializers(kind: Kind)
    requires kind != ContributorKind
    ensures Flatten(DeclaredSerializerMap(kind)) == map[
      List := ListSerializer(kind), Retrieve := DetailSerializer(kind),
      Create := PostSerializer(kind), Update := PostSerializer(kind), PartialUpdate := PostSerializer(kind)]
  {
    var d := DeclaredSerializerMap(kind);
    FlattenLiteral3(d[0], d[1], d[2]);
    WriteSingle(map[], List, ListSerializer(kind));
    var m1 := map[List := ListSerializer(kind)];
    WriteSingle(m1, Retrieve, DetailSerializer(kind));
    PostTupleExpansion(m1[Retrieve := DetailSerializer(kind)], PostSerializer(kind));
  }

  /** The tuple key (create, update, partial_update) writes its value under
      each of the three actions. */
  lemma PostTupleExpansion(m: map<Action, Serializer>, post: Serializer)
    ensures Write(m, (Tuple([Create, Update, PartialUpdate]), post)) == m[Create := post][Update := post][PartialUpdate := post]
  {
    WriteTuple(m, [Create, Update, PartialUpdate], post);
    assert [Create, Update, PartialUpdate][1..] == [Update, PartialUpdate];
    WriteTuple(m[Create := post], [Update, PartialUpdate], post);
    assert [Update, PartialUpdate][1..] == [PartialUpdate];
    WriteTuple(m[Create := post][Update := post], [PartialUpdate], post);
    assert [PartialUpdate][1..] == [];
    WriteTuple(m[Create := post][Update := post][PartialUpdate := post], [], post);
  }

  /** get_serializer_class: the expanded map's entry for the action, or the
      viewset's serializer_class (the list serializer in every viewset). */
  function SerializerClass(kind: Kind, action: Action): Serializer
  {
    var m := Flatten(DeclaredSerializerMap(kind));
    if action in m then m[action] else ListSerializer(kind)
  }

  /** The contributor map's entries, one lookup at a time. */
  lemma ContributorSerializerEntries()
    ensures var m := Flatten(DeclaredSerializerMap(ContributorKind));
      && List in m && m[List] == ListSerializer(ContributorKind)
      && Retrieve in m && m[Retrieve] == DetailSerializer(ContributorKind)
      && Create in m && m[Create] == PostSerializer(ContributorKind)
      && Update !in m && PartialUpdate !in m && Destroy !in m
  {
    ExpandedContributorSerializers();
  }

  /** The other maps' entries, one lookup at a time. */
  lemma PostSerializerEntries(kind: Kind)
    requires kind != ContributorKind
    ensures var m := Flatten(DeclaredSerializerMap(kind));
      && List in m && m[List] == ListSerializer(kind)
      && Retrieve in m && m[Retrieve] == DetailSerializer(kind)
      && Create in m && m[Create] == PostSerializer(kind)
      && Update in m && m[Update] == PostSerializer(kind)
      && PartialUpdate in m && m[PartialUpdate] == PostSerializer(kind)
      && Destroy !in m
  {
    ExpandedPostSerializers(kind);
  }

  /** update and partial_update always share a serializer. */
  lemma UpdateSerializersAgree(kind: Kind)
    ensures SerializerClass(kind, Update) == SerializerClass(kind, PartialUpdate)
    ensures SerializerClass(kind, Update) == if kind == ContributorKind then ListSerializer(kind) else PostSerializer(kind)
  {
    if kind == ContributorKind {
      ContributorSerializerEntries();
    } else {
      PostSerializerEntries(kind);
    }
  }

  /** Which serializer the other actions get. */
  lemma SerializerDispatch(kind: Kind, action: Action)
    requires action in {List, Retrieve, Create, Destroy}
    ensures SerializerClass(kind, action) ==
      match action
      case Retrieve => DetailSerializer(kind)
      case Create => PostSerializer(kind)
      case _ => ListSerializer(kind)
  {
    if kind == ContributorKind {
      ContributorSerializerEntries();
    } else {
      PostSerializerEntries(kind);
    }
  }
}

=== FILE: store.dfy ===
/** The stored records of the current revision (src/softdesk/models.py), the
    database constraints they are kept under, and the post-save receiver that
    enrolls a project's author (src/softdesk/signals.py). Each table is a map
    from primary key to row; auto-increment keys come from per-table counters
    and a comment's UUID is a parameter, since it is drawn at random. */
module Store {
  import opened Wrappers
  import opened Accounts

  type Id = nat

  datatype ProjectType = Backend | Frontend | Ios | Android
  datatype IssuePriority = Low | Medium | High
  datatype IssueType = Bug | Feature | Task
  datatype IssueStatus = ToDo | InProgress | Finished

  datatype Project = Project(author: UserId, title: string, kind: ProjectType)
  datatype Contributor = Contributor(user: UserId, project: Id)
  datatype Issue = Issue(
    author: UserId, project: Id, title: string, assignedTo: Option<UserId>,
    priority: Option<IssuePriority>, issueType: Option<IssueType>, status: IssueStatus)
  datatype Comment = Comment(author: UserId, issue: Id, content: string)

  datatype Db = Db(
    projects: map<Id, Project>,
    contributors: map<Id, Contributor>,
    issues: map<Id, Issue>,
    comments: map<Id, Comment>,
    nextProject: Id, nextContributor: Id, nextIssue: Id)

  datatype DbError =
    | IntegrityError
    | AuthorRemoval(message: string)

  const AuthorRemovalMessage: string := "The author cannot be deleted from the contributors!"

  /** A store with no rows. */
  const Empty: Db := Db(map[], map[], map[], map[], 0, 0, 0)

  /** The user ids of a project's contributor rows. */
  function ContributorUsers(db: Db, pid: Id): set<UserId>
  {
    set cid | cid in db.contributors && db.contributors[cid].project == pid :: db.contributors[cid].user
  }

  /** The (user, project) pair is already enrolled. */
  predicate IsEnrolled(db: Db, user: UserId, pid: Id)
  {
    exists cid :: cid in db.contributors && db.contributors[cid] == Contributor(user, pid)
  }

  lemma EnrolledIffListed(db: Db, user: UserId, pid: Id)
    ensures IsEnrolled(db, user, pid) <==> user in ContributorUsers(db, pid)
  {
    if user in ContributorUsers(db, pid) {
      var cid :| cid in db.contributors && db.contributors[cid].project == pid && db.contributors[cid].user == user;
      assert db.contributors[cid] == Contributor(user, pid);
    }
  }

  /** UniqueConstraint unique_project: one project per (author, title). */
  predicate ProjectTitleTaken(db: Db, author: UserId, title: string)
  {
    exists pid :: pid in db.projects && db.projects[pid].author == author && db.projects[pid].title == title
  }

  /** UniqueConstraint unique_issue: one issue per (author, project, title). */
  predicate IssueTitleTaken(db: Db, author: UserId, pid: Id, title: string)
  {
    exists iid :: iid in db.issues && db.issues[iid].author == author
      && db.issues[iid].project == pid && db.issues[iid].title == title
  }

  ghost predicate UniqueProjects(db: Db)
  {
    forall a, b :: a in db.projects && b in db.projects && a != b ==>
      (db.projects[a].author, db.projects[a].title) != (db.projects[b].author, db.projects[b].title)
  }

  /** UniqueConstraint unique_contributor: one row per (user, project). */
  ghost predicate UniqueContributors(db: Db)
  {
    forall a, b :: a in db.contributors && b in db.contributors && a != b ==>
      db.contributors[a] != db.contributors[b]
  }

  ghost predicate UniqueIssues(db: Db)
  {
    forall a, b :: a in db.issues && b in db.issues && a != b ==>
      (db.issues[a].author, db.issues[a].project, db.issues[a].title)
        != (db.issues[b].author, db.issues[b].project, db.issues[b].title)
  }

  /** Every foreign key names an existing row. */
  ghost predicate ForeignKeys(db: Db)
  {
    && (forall cid :: cid in db.contributors ==> db.contributors[cid].project in db.projects)
    && (forall iid :: iid in db.issues ==> db.issues[iid].project in db.projects)
    && (forall k :: k in db.comments ==> db.comments[k].issue in db.issues)
  }

  /** Auto-increment counters are past every key in use. */
  ghost predicate FreshCounters(db: Db)
  {
    && (forall pid :: pid in db.projects ==> pid < db.nextProject)
    && (forall cid :: cid in db.contributors ==> cid < db.nextContributor)
    && (forall iid :: iid in db.issues ==> iid < db.nextIssue)
  }

  /** Every project's author is one of its contributors. */
  ghost predicate AuthorsEnrolled(db: Db)
  {
    forall pid :: pid in db.projects ==> IsEnrolled(db, db.projects[pid].author, pid)
  }

  ghost predicate Valid(db: Db)
  {
    && UniqueProjects(db) && UniqueContributors(db) && UniqueIssues(db)
    && ForeignKeys(db) && FreshCounters(db) && AuthorsEnrolled(db)
  }

  lemma EmptyIsValid()
    ensures Valid(Empty)
  {
  }

  /** A write that keeps every project's author and every contributor row of
      a remaining project keeps all authors enrolled. */
  lemma AuthorsStayEnrolled(db: Db, r: Db)
    requires AuthorsEnrolled(db)
    requires forall p :: p in r.projects ==> p in db.projects && r.projects[p].author == db.projects[p].author
    requires forall c :: c in db.contributors && db.contributors[c].project in r.projects ==>
      c in r.contributors && r.contributors[c] == db.contributors[c]
    ensures AuthorsEnrolled(r)
  {
    forall p | p in r.projects ensures IsEnrolled(r, r.projects[p].author, p) {
      var c :| c in db.contributors && db.contributors[c] == Contributor(db.projects[p].author, p);
      assert r.contributors[c] == Contributor(r.projects[p].author, p);
    }
  }

  /** Saving a new Contributor row. */
  function InsertContributor(db: Db, user: UserId, pid: Id): (r: Result<Db, DbError>)
    ensures r.Err? <==> pid !in db.projects || IsEnrolled(db, user, pid)
    ensures r.Err? ==> r.error == IntegrityError
    ensures r.Ok? ==> r.value == db.(contributors := db.contributors[db.nextContributor := Contributor(user, pid)],
                                     nextContributor := db.nextContributor + 1)
    ensures r.Ok? && Valid(db) ==> Valid(r.value) && db.nextContributor !in db.contributors
  {
    if pid !in db.projects || IsEnrolled(db, user, pid) then Err(IntegrityError)
    else
      var r := db.(contributors := db.contributors[db.nextContributor := Contributor(user, pid)],
                   nextContributor := db.nextContributor + 1);
      assert Valid(db) ==> Valid(r) by {
        if Valid(db) {
          assert db.nextContributor !in db.contributors;
          AuthorsStayEnrolled(db, r);
          NewContributorKeys(db, user, pid);
        }
      }
      Ok(r)
  }

  lemma NewContributorKeys(db: Db, user: UserId, pid: Id)
    requires UniqueContributors(db) && ForeignKeys(db) && FreshCounters(db)
    requires pid in db.projects && !IsEnrolled(db, user, pid)
    ensures var r := db.(contributors := db.contributors[db.nextContributor := Contributor(user, pid)],
                         nextContributor := db.nextContributor + 1);
      UniqueContributors(r) && ForeignKeys(r) && FreshCounters(r)
  {
    assert db.nextContributor !in db.contributors;
  }

  /** assign_contributor: after a Project save, a Contributor row for the
      project's author is saved only when the project was just created. */
  function AssignContributor(db: Db, pid: Id, created: bool): Result<Db, DbError>
    requires pid in db.projects
  {
    if created then InsertContributor(db, db.projects[pid].author, pid) else Ok(db)
  }

  /** A project that did not exist has no contributor rows, so after its
      author's row is added the author is its only contributor. */
  lemma NewProjectHasOnlyAuthor(db: Db, r: Db, pid: Id, cid: Id, user: UserId)
    requires ForeignKeys(db) && pid !in db.projects && cid !in db.contributors
    requires r.contributors == db.contributors[cid := Contributor(user, pid)]
    ensures ContributorUsers(r, pid) == {user}
  {
    assert r.contributors[cid].user == user;
  }

  /** Creating a project: the row insert under unique_project, then the
      post-save receiver with created set. */
  function CreateProject(db: Db, author: UserId, title: string, kind: ProjectType): (r: Result<(Db, Id), DbError>)
    requires Valid(db)
    ensures r.Err? <==> ProjectTitleTaken(db, author, title)
    ensures r.Err? ==> r.error == IntegrityError
    ensures r.Ok? ==> Valid(r.value.0)
    ensures r.Ok? ==> var (db', pid) := r.value;
      && pid !in db.projects
      && db'.projects == db.projects[pid := Project(author, title, kind)]
      && db'.issues == db.issues && db'.comments == db.comments
      && (exists cid: Id :: cid !in db.contributors
            && db'.contributors == db.contributors[cid := Contributor(author, pid)])
      && author in ContributorUsers(db', pid)
  {
    if ProjectTitleTaken(db, author, title) then Err(IntegrityError)
    else
      var pid := db.nextProject;
      var saved := db.(projects := db.projects[pid := Project(author, title, kind)], nextProject := pid + 1);
      assert !IsEnrolled(saved, author, pid);
      var enrolled := AssignContributor(saved, pid, true);
      assert enrolled.Ok?;
      var db' := enrolled.value;
      assert db'.contributors[db.nextContributor] == Contributor(author, pid);
      EnrolledIffListed(db', author, pid);
      assert Valid(db') by { CreatedProjectValid(db, author, title, kind); }
      Ok((db', pid))
  }

  /** The rows after a project is inserted and its author enrolled. */
  function WithNewProject(db: Db, author: UserId, title: string, kind: ProjectType): Db
  {
    var pid := db.nextProject;
    db.(projects := db.projects[pid := Project(author, title, kind)], nextProject := pid + 1,
        contributors := db.contributors[db.nextContributor := Contributor(author, pid)],
        nextContributor := db.nextContributor + 1)
  }

  lemma CreatedProjectValid(db: Db, author: UserId, title: string, kind: ProjectType)
    requires Valid(db) && !ProjectTitleTaken(db, author, title)
    ensures var pid := db.nextProject;
      var saved := db.(projects := db.projects[pid := Project(author, title, kind)], nextProject := pid + 1);
      var r := saved.(contributors := saved.contributors[saved.nextContributor := Contributor(author, pid)],
                      nextContributor := saved.nextContributor + 1);
      Valid(r)
  {
    NewProjectTitleUnique(db, author, title, kind);
    NewProjectRowUnique(db, author, title, kind);
    NewProjectAuthorsEnrolled(db, author, title, kind);
    assert ForeignKeys(WithNewProject(db, author, title, kind));
  }

  lemma NewProjectTitleUnique(db: Db, author: UserId, title: string, kind: ProjectType)
    requires UniqueProjects(db) && FreshCounters(db) && !ProjectTitleTaken(db, author, title)
    ensures UniqueProjects(WithNewProject(db, author, title, kind))
  {
    assert db.nextProject !in db.projects;
  }

  lemma NewProjectRowUnique(db: Db, author: UserId, title: string, kind: ProjectType)
    requires UniqueContributors(db) && FreshCounters(db) && ForeignKeys(db)
    ensures UniqueContributors(WithNewProject(db, author, title, kind))
  {
    var r := WithNewProject(db, author, title, kind);
    var cid := db.nextContributor;
    assert db.nextProject !in db.projects && cid !in db.contributors;
    forall a, b | a in r.contributors && b in r.contributors && a != b
      ensures r.contributors[a] != r.contributors[b]
    {
      if a == cid || b == cid {
        var other := if a == cid then b else a;
        assert r.contributors[other].project != db.nextProject;
      }
    }
  }

  lemma NewProjectAuthorsEnrolled(db: Db, author: UserId, title: string, kind: ProjectType)
    requires AuthorsEnrolled(db) && FreshCounters(db)
    ensures AuthorsEnrolled(WithNewProject(db, author, title, kind))
  {
    var r := WithNewProject(db, author, title, kind);
    var pid := db.nextProject;
    var cid := db.nextContributor;
    assert cid !in db.contributors;
    forall p | p in r.projects ensures IsEnrolled(r, r.projects[p].author, p) {
      if p == pid {
        assert r.contributors[cid] == Contributor(author, pid);
      } else {
        var c :| c in db.contributors && db.contributors[c] == Contributor(db.projects[p].author, p);
        assert r.contributors[c] == Contributor(r.projects[p].author, p);
      }
    }
  }

  /** Another project than `pid` already has this (author, title). */
  predicate TitleTakenByOther(db: Db, pid: Id, author: UserId, title: string)
  {
    exists q :: q in db.projects && q != pid && db.projects[q].author == author && db.projects[q].title == title
  }

  /** Re-saving an existing project with new fields (its author never
      changes): unique_project is checked against the other rows, and the
      receiver, called with created unset, saves nothing. */
  function SaveProject(db: Db, pid: Id, title: string, kind: ProjectType): (r: Result<Db, DbError>)
    requires pid in db.projects
    ensures r.Err? <==> TitleTakenByOther(db, pid, db.projects[pid].author, title)
    ensures r.Ok? ==> r.value.contributors == db.contributors && r.value.projects.Keys == db.projects.Keys
    ensures r.Ok? ==> r.value.projects[pid] == Project(db.projects[pid].author, title, kind)
    ensures r.Ok? ==> forall q :: q in db.projects && q != pid ==> r.value.projects[q] == db.projects[q]
    ensures r.Ok? ==> r.value.issues == db.issues && r.value.comments == db.comments
    ensures r.Ok? && Valid(db) ==> Valid(r.value)
  {
    var author := db.projects[pid].author;
    if TitleTakenByOther(db, pid, author, title) then Err(IntegrityError)
    else
      var saved := db.(projects := db.projects[pid := Project(author, title, kind)]);
      assert Valid(db) ==> Valid(saved) by {
        if Valid(db) {
          SavedProjectValid(db, pid, title, kind);
        }
      }
      AssignContributor(saved, pid, false)
  }

  lemma SavedProjectValid(db: Db, pid: Id, title: string, kind: ProjectType)
    requires Valid(db) && pid in db.projects
    requires !TitleTakenByOther(db, pid, db.projects[pid].author, title)
    ensures Valid(db.(projects := db.projects[pid := Project(db.projects[pid].author, title, kind)]))
  {
    var saved := db.(projects := db.projects[pid := Project(db.projects[pid].author, title, kind)]);
    AuthorsStayEnrolled(db, saved);
    ResavedTitleUnique(db, pid, title, kind);
    assert ForeignKeys(saved) && FreshCounters(saved);
  }

  lemma ResavedTitleUnique(db: Db, pid: Id, title: string, kind: ProjectType)
    requires UniqueProjects(db) && pid in db.projects
    requires !TitleTakenByOther(db, pid, db.projects[pid].author, title)
    ensures UniqueProjects(db.(projects := db.projects[pid := Project(db.projects[pid].author, title, kind)]))
  {
    var saved := db.(projects := db.projects[pid := Project(db.projects[pid].author, title, kind)]);
    forall a, b | a in saved.projects && b in saved.projects && a != b
      ensures (saved.projects[a].author, saved.projects[a].title) != (saved.projects[b].author, saved.projects[b].title)
    {
      if a == pid || b == pid {
        var other := if a == pid then b else a;
        assert !(other in db.projects && other != pid && db.projects[other].author == db.projects[pid].author
                 && db.projects[other].title == title);
      }
    }
  }

  /** Contributor.delete: refused when the row enrolls the project's author,
      whoever asks; otherwise the row alone is removed. */
  function DeleteContributor(db: Db, cid: Id): (r: Result<Db, DbError>)
    requires cid in db.contributors && db.contributors[cid].project in db.projects
    ensures r.Err? <==> db.contributors[cid].user == db.projects[db.contributors[cid].project].author
    ensures r.Err? ==> r.error == AuthorRemoval(AuthorRemovalMessage)
    ensures r.Ok? ==> r.value == db.(contributors := db.contributors - {cid})
    ensures r.Ok? && Valid(db) ==> Valid(r.value)
  {
    var row := db.contributors[cid];
    if row.user == db.projects[row.project].author then Err(AuthorRemoval(AuthorRemovalMessage))
    else
      var r := db.(contributors := db.contributors - {cid});
      assert Valid(db) ==> Valid(r) by {
        if Valid(db) {
          forall p | p in r.projects ensures IsEnrolled(r, r.projects[p].author, p) {
            var c :| c in db.contributors && db.contributors[c] == Contributor(db.projects[p].author, p);
            assert c != cid;
            assert r.contributors[c] == Contributor(r.projects[p].author, p);
          }
        }
      }
      Ok(r)
  }

  /** The rows left once a project and everything hanging off it are gone. */
  function Cascade(db: Db, pid: Id): Db
  {
    var issues := map iid | iid in db.issues && db.issues[iid].project != pid :: db.issues[iid];
    db.(
      projects := db.projects - {pid},
      contributors := map cid | cid in db.contributors && db.contributors[cid].project != pid :: db.contributors[cid],
      issues := issues,
      comments := map k | k in db.comments && db.comments[k].issue in issues :: db.comments[k])
  }

  lemma CascadeValid(db: Db, pid: Id)
    requires Valid(db) && pid in db.projects
    ensures Valid(Cascade(db, pid))
  {
    var r := Cascade(db, pid);
    AuthorsStayEnrolled(db, r);
    assert UniqueContributors(r) by { CascadeKeepsUniqueRows(db, pid); }
    assert ForeignKeys(r) by { CascadeKeepsForeignKeys(db, pid); }
  }

  lemma CascadeKeepsUniqueRows(db: Db, pid: Id)
    requires UniqueContributors(db) && UniqueIssues(db) && UniqueProjects(db)
    ensures var r := Cascade(db, pid); UniqueContributors(r) && UniqueIssues(r) && UniqueProjects(r)
  {
  }

  lemma CascadeKeepsForeignKeys(db: Db, pid: Id)
    requires ForeignKeys(db)
    ensures ForeignKeys(Cascade(db, pid))
  {
  }

  /** Deleting a project: its contributors and issues go with it (on_delete
      CASCADE), and with the issues their comments; every other row stays as
      it was. */
  function DeleteProject(db: Db, pid: Id): (r: Db)
    requires pid in db.projects
    ensures r.projects == db.projects - {pid}
    ensures forall cid :: cid in r.contributors <==> cid in db.contributors && db.contributors[cid].project != pid
    ensures forall cid :: cid in r.contributors ==> r.contributors[cid] == db.contributors[cid]
    ensures forall iid :: iid in r.issues <==> iid in db.issues && db.issues[iid].project != pid
    ensures forall iid :: iid in r.issues ==> r.issues[iid] == db.issues[iid]
    ensures forall k :: k in r.comments <==> k in db.comments && db.comments[k].issue in r.issues
    ensures forall k :: k in r.comments ==> r.comments[k] == db.comments[k]
    ensures ContributorUsers(r, pid) == {}
    ensures Valid(db) ==> Valid(r)
  {
    assert Valid(db) ==> Valid(Cascade(db, pid)) by {
      if Valid(db) {
        CascadeValid(db, pid);
      }
    }
    Cascade(db, pid)
  }

  /** Creating an issue under unique_issue; a missing status takes the
      column default TO_DO, priority and type may stay null. */
  function CreateIssue(
    db: Db, author: UserId, pid: Id, title: string, assignedTo: Option<UserId>,
    priority: Option<IssuePriority>, issueType: Option<IssueType>, status: Option<IssueStatus>): (r: Result<(Db, Id), DbError>)
    ensures r.Err? <==> pid !in db.projects || IssueTitleTaken(db, author, pid, title)
    ensures r.Err? ==> r.error == IntegrityError
    ensures r.Ok? && FreshCounters(db) ==> r.value.1 !in db.issues
    ensures r.Ok? ==> var (db', iid) := r.value;
      && db'.issues == db.issues[iid := Issue(author, pid, title, assignedTo, priority, issueType,
                                               if status.Some? then status.value else ToDo)]
      && db'.projects == db.projects && db'.contributors == db.contributors && db'.comments == db.comments
    ensures r.Ok? && Valid(db) ==> Valid(r.value.0)
  {
    if pid !in db.projects || IssueTitleTaken(db, author, pid, title) then Err(IntegrityError)
    else
      var iid := db.nextIssue;
      var row := Issue(author, pid, title, assignedTo, priority, issueType,
                       match status case Some(st) => st case None => ToDo);
      var r := db.(issues := db.issues[iid := row], nextIssue := iid + 1);
      assert Valid(db) ==> Valid(r) by {
        if Valid(db) {
          CreatedIssueValid(db, row);
        }
      }
      Ok((r, iid))
  }

  lemma CreatedIssueValid(db: Db, row: Issue)
    requires Valid(db) && row.project in db.projects && !IssueTitleTaken(db, row.author, row.project, row.title)
    ensures Valid(db.(issues := db.issues[db.nextIssue := row], nextIssue := db.nextIssue + 1))
  {
    var r := db.(issues := db.issues[db.nextIssue := row], nextIssue := db.nextIssue + 1);
    AuthorsStayEnrolled(db, r);
    NewIssueUnique(db, row);
    NewIssueKeys(db, row);
  }

  lemma NewIssueKeys(db: Db, row: Issue)
    requires ForeignKeys(db) && FreshCounters(db) && row.project in db.projects
    ensures var r := db.(issues := db.issues[db.nextIssue := row], nextIssue := db.nextIssue + 1);
      ForeignKeys(r) && FreshCounters(r)
  {
  }

  lemma NewIssueUnique(db: Db, row: Issue)
    requires UniqueIssues(db) && FreshCounters(db) && !IssueTitleTaken(db, row.author, row.project, row.title)
    ensures UniqueIssues(db.(issues := db.issues[db.nextIssue := row]))
  {
    var iid := db.nextIssue;
    var r := db.(issues := db.issues[iid := row]);
    assert iid !in db.issues;
    forall a, b | a in r.issues && b in r.issues && a != b
      ensures (r.issues[a].author, r.issues[a].project, r.issues[a].title)
        != (r.issues[b].author, r.issues[b].project, r.issues[b].title)
    {
      if a == iid || b == iid {
        var other := if a == iid then b else a;
        assert !(other in db.issues && db.issues[other].author == row.author
                 && db.issues[other].project == row.project && db.issues[other].title == row.title);
      }
    }
  }

  /** Deleting an issue removes its comments (on_delete CASCADE). */
  function DeleteIssue(db: Db, iid: Id): (r: Db)
    requires iid in db.issues
    ensures r.issues == db.issues - {iid}
    ensures forall k :: k in r.comments <==> k in db.comments && db.comments[k].issue != iid
    ensures forall k :: k in r.comments ==> r.comments[k] == db.comments[k]
    ensures r.projects == db.projects && r.contributors == db.contributors
    ensures Valid(db) ==> Valid(r)
  {
    var r := WithoutIssue(db, iid);
    assert Valid(db) ==> Valid(r) by {
      if Valid(db) {
        AuthorsStayEnrolled(db, r);
        IssueRemovalKeys(db, iid);
      }
    }
    r
  }

  /** The rows left once an issue and its comments are gone. */
  function WithoutIssue(db: Db, iid: Id): Db
  {
    db.(issues := db.issues - {iid},
        comments := map k | k in db.comments && db.comments[k].issue != iid :: db.comments[k])
  }

  lemma IssueRemovalKeys(db: Db, iid: Id)
    requires UniqueIssues(db) && ForeignKeys(db) && FreshCounters(db)
    ensures var r := WithoutIssue(db, iid); UniqueIssues(r) && ForeignKeys(r) && FreshCounters(r)
  {
  }

  /** Creating a comment under a random UUID key; a key already in use or a
      missing issue is refused by the database. */
  function CreateComment(db: Db, uuid: Id, author: UserId, iid: Id, content: string): (r: Result<Db, DbError>)
    ensures r.Err? <==> iid !in db.issues || uuid in db.comments
    ensures r.Ok? ==> r.value == db.(comments := db.comments[uuid := Comment(author, iid, content)])
    ensures r.Ok? && Valid(db) ==> Valid(r.value)
  {
    if iid !in db.issues || uuid in db.comments then Err(IntegrityError)
    else
      var r := db.(comments := db.comments[uuid := Comment(author, iid, content)]);
      assert Valid(db) ==> Valid(r) by {
        if Valid(db) {
          AuthorsStayEnrolled(db, r);
        }
      }
      Ok(r)
  }

  /** Deleting a comment removes that row alone. */
  function DeleteComment(db: Db, uuid: Id): (r: Db)
    requires uuid in db.comments
    ensures r == db.(comments := db.comments - {uuid})
    ensures Valid(db) ==> Valid(r)
  {
    var r := db.(comments := db.comments - {uuid});
    assert Valid(db) ==> Valid(r) by {
      if Valid(db) {
        AuthorsStayEnrolled(db, r);
      }
    }
    r
  }

  /** Another issue than `iid` already has this (author, project, title). */
  predicate IssueTitleTakenByOther(db: Db, iid: Id, author: UserId, pid: Id, title: string)
  {
    exists j :: j in db.issues && j != iid && db.issues[j].author == author
      && db.issues[j].project == pid && db.issues[j].title == title
  }

  /** Updating an issue (PUT or PATCH): its author and project stay, the
      other fields take their new values, and unique_issue is checked
      against the other rows. */
  function SaveIssue(
    db: Db, iid: Id, title: string, assignedTo: Option<UserId>, priority: Option<IssuePriority>,
    issueType: Option<IssueType>, status: IssueStatus): (r: Result<Db, DbError>)
    requires iid in db.issues
    ensures r.Err? <==> IssueTitleTakenByOther(db, iid, db.issues[iid].author, db.issues[iid].project, title)
    ensures r.Err? ==> r.error == IntegrityError
    ensures r.Ok? ==> r.value.issues.Keys == db.issues.Keys
    ensures r.Ok? ==> (r.value.issues[iid] ==
      Issue(db.issues[iid].author, db.issues[iid].project, title, assignedTo, priority, issueType, status))
    ensures r.Ok? ==> forall j :: j in db.issues && j != iid ==> r.value.issues[j] == db.issues[j]
    ensures r.Ok? ==> (r.value.projects == db.projects && r.value.contributors == db.contributors
                       && r.value.comments == db.comments)
    ensures r.Ok? && Valid(db) ==> Valid(r.value)
  {
    var row := db.issues[iid];
    if IssueTitleTakenByOther(db, iid, row.author, row.project, title) then Err(IntegrityError)
    else
      var r := db.(issues := db.issues[iid := Issue(row.author, row.project, title, assignedTo, priority, issueType, status)]);
      assert Valid(db) ==> Valid(r) by {
        if Valid(db) {
          SavedIssueValid(db, iid, r.issues[iid]);
        }
      }
      Ok(r)
  }

  lemma SavedIssueValid(db: Db, iid: Id, row: Issue)
    requires Valid(db) && iid in db.issues
    requires row.author == db.issues[iid].author && row.project == db.issues[iid].project
    requires !IssueTitleTakenByOther(db, iid, row.author, row.project, row.title)
    ensures Valid(db.(issues := db.issues[iid := row]))
  {
    var r := db.(issues := db.issues[iid := row]);
    AuthorsStayEnrolled(db, r);
    SavedIssueUnique(db, iid, row);
    SavedIssueKeys(db, iid, row);
  }

  lemma SavedIssueKeys(db: Db, iid: Id, row: Issue)
    requires ForeignKeys(db) && FreshCounters(db) && iid in db.issues && row.project in db.projects
    ensures var r := db.(issues := db.issues[iid := row]); ForeignKeys(r) && FreshCounters(r)
  {
  }

  lemma SavedIssueUnique(db: Db, iid: Id, row: Issue)
    requires UniqueIssues(db) && iid in db.issues
    requires !IssueTitleTakenByOther(db, iid, row.author, row.project, row.title)
    ensures UniqueIssues(db.(issues := db.issues[iid := row]))
  {
    var r := db.(issues := db.issues[iid := row]);
    forall a, b | a in r.issues && b in r.issues && a != b
      ensures (r.issues[a].author, r.issues[a].project, r.issues[a].title)
        != (r.issues[b].author, r.issues[b].project, r.issues[b].title)
    {
      if a == iid || b == iid {
        var other := if a == iid then b else a;
        assert !(other in db.issues && other != iid && db.issues[other].author == row.author
                 && db.issues[other].project == row.project && db.issues[other].title == row.title);
      }
    }
  }

  /** Updating a comment's content; no constraint can refuse it. */
  function SaveComment(db: Db, uuid: Id, content: string): (r: Db)
    requires uuid in db.comments
    ensures r.comments.Keys == db.comments.Keys
    ensures r.comments[uuid].content == content
    ensures r.comments[uuid].author == db.comments[uuid].author && r.comments[uuid].issue == db.comments[uuid].issue
    ensures forall k :: k in db.comments && k != uuid ==> r.comments[k] == db.comments[k]
    ensures r.projects == db.projects && r.contributors == db.contributors && r.issues == db.issues
    ensures Valid(db) ==> Valid(r)
  {
    var r := db.(comments := db.comments[uuid := db.comments[uuid].(content := content)]);
    assert Valid(db) ==> Valid(r) by {
      if Valid(db) {
        SavedCommentValid(db, uuid, content);
      }
    }
    r
  }

  /** Rewriting a comment's content keeps its author and issue, so no
      constraint of the store is affected. */
  lemma SavedCommentValid(db: Db, uuid: Id, content: string)
    requires Valid(db) && uuid in db.comments
    ensures Valid(db.(comments := db.comments[uuid := db.comments[uuid].(content := content)]))
  {
    var r := db.(comments := db.comments[uuid := db.comments[uuid].(content := content)]);
    AuthorsStayEnrolled(db, r);
    CommentIssuesKept(db, r);
  }

  /** Only the comments table differs, and every comment keeps its issue. */
  lemma CommentIssuesKept(db: Db, r: Db)
    requires Valid(db)
    requires r == db.(comments := r.comments) && r.comments.Keys == db.comments.Keys
    requires forall k :: k in r.comments ==> r.comments[k].issue == db.comments[k].issue
    requires AuthorsEnrolled(r)
    ensures Valid(r)
  {
  }

  /** The single-record writes the API performs. */
  datatype Op =
    | NewProject(author: UserId, title: string, kind: ProjectType)
    | EditProject(pid: Id, title: string, kind: ProjectType)
    | RemoveProject(pid: Id)
    | Enroll(user: UserId, pid: Id)
    | RemoveContributor(cid: Id)
    | NewIssue(author: UserId, pid: Id, title: string, assignedTo: Option<UserId>,
               priority: Option<IssuePriority>, issueType: Option<IssueType>, status: Option<IssueStatus>)
    | EditIssue(iid: Id, title: string, assignedTo: Option<UserId>, priority: Option<IssuePriority>,
                issueType: Option<IssueType>, newStatus: IssueStatus)
    | RemoveIssue(iid: Id)
    | NewComment(uuid: Id, author: UserId, iid: Id, content: string)
    | EditComment(uuid: Id, content: string)
    | RemoveComment(uuid: Id)

  /** One write; a write that fails, or names a row that is not there,
      leaves the store as it was. */
  function Apply(db: Db, op: Op): (r: Db)
    requires Valid(db)
    ensures Valid(r)
  {
    match op
    case NewProject(a, t, k) => (match CreateProject(db, a, t, k) case Ok(v) => v.0 case Err(_) => db)
    case EditProject(pid, t, k) =>
      if pid !in db.projects then db else (match SaveProject(db, pid, t, k) case Ok(v) => v case Err(_) => db)
    case RemoveProject(pid) => if pid !in db.projects then db else DeleteProject(db, pid)
    case Enroll(u, pid) => (match InsertContributor(db, u, pid) case Ok(v) => v case Err(_) => db)
    case RemoveContributor(cid) =>
      if cid !in db.contributors then db
      else (match DeleteContributor(db, cid) case Ok(v) => v case Err(_) => db)
    case NewIssue(a, pid, t, at, pr, ty, st) =>
      (match CreateIssue(db, a, pid, t, at, pr, ty, st) case Ok(v) => v.0 case Err(_) => db)
    case EditIssue(iid, t, at, pr, ty, st) =>
      if iid !in db.issues then db else (match SaveIssue(db, iid, t, at, pr, ty, st) case Ok(v) => v case Err(_) => db)
    case RemoveIssue(iid) => if iid !in db.issues then db else DeleteIssue(db, iid)
    case NewComment(u, a, iid, c) => (match CreateComment(db, u, a, iid, c) case Ok(v) => v case Err(_) => db)
    case EditComment(u, c) => if u !in db.comments then db else SaveComment(db, u, c)
    case RemoveComment(u) => if u !in db.comments then db else DeleteComment(db, u)
  }

  /** The store after a sequence of writes. */
  function Run(db: Db, ops: seq<Op>): Db
    requires Valid(db)
    decreases |ops|
  {
    if |ops| == 0 then db else Run(Apply(db, ops[0]), ops[1..])
  }

  /** Every sequence of writes keeps the store valid: in particular no
      single-record delete ever separates a project from its author's
      Contributor row, and the uniqueness constraints keep holding. */
  lemma {:induction false} RunKeepsValid(db: Db, ops: seq<Op>)
    requires Valid(db)
    ensures Valid(Run(db, ops))
    decreases |ops|
  {
    if |ops| > 0 {
      RunKeepsValid(Apply(db, ops[0]), ops[1..]);
    }
  }

  /** While a project exists, its author is among its contributors, however
      the store was reached from a valid one. */
  lemma AuthorAlwaysContributor(db: Db, ops: seq<Op>, pid: Id)
    requires Valid(db)
    ensures var s := Run(db, ops); pid in s.projects ==> s.projects[pid].author in ContributorUsers(s, pid)
  {
    RunKeepsValid(db, ops);
    var s := Run(db, ops);
    if pid in s.projects {
      EnrolledIffListed(s, s.projects[pid].author, pid);
    }
  }

  /** The same title under two different authors is accepted twice; under
      one author the second creation is refused. */
  lemma SameTitleTwoAuthors(db: Db, a: UserId, b: UserId, title: string, kind: ProjectType)
    requires Valid(db) && !ProjectTitleTaken(db, a, title) && !ProjectTitleTaken(db, b, title)
    ensures CreateProject(db, a, title, kind).Ok?
    ensures var db1 := CreateProject(db, a, title, kind).value.0;
      && CreateProject(db1, a, title, kind) == Err(IntegrityError)
      && (a != b ==> CreateProject(db1, b, title, kind).Ok?)
  {
    var (db1, pid) := CreateProject(db, a, title, kind).value;
    assert db1.projects[pid].author == a && db1.projects[pid].title == title;
  }

  /** Re-saving an existing project enrolls nobody. */
  lemma ResaveEnrollsNobody(db: Db, pid: Id)
    requires pid in db.projects
    ensures AssignContributor(db, pid, false) == Ok(db)
    ensures Valid(db) ==> var r := AssignContributor(db, pid, true); r.Err? && r.error == IntegrityError
  {
    if Valid(db) {
      assert IsEnrolled(db, db.projects[pid].author, pid);
    }
  }
}

=== FILE: tuple_keys.dfy ===
/** The normalisation of class-level tables whose keys may be tuples of
    actions (softdesk/utils/utils.py). A Python dict is modelled as the
    sequence of its entries in insertion order; the flattened result is a
    map, because its consumers only test membership and look keys up. */
module TupleKeys {

  /** A key of the input dict: a single key, or a tuple of keys sharing one value. */
  datatype DictKey<K> = Single(key: K) | Tuple(members: seq<K>)

  /** The output keys one input key stands for. */
  function Covered<K>(k: DictKey<K>): set<K>
  {
    match k
    case Single(x) => {x}
    case Tuple(xs) => set x | x in xs
  }

  /** Every output key the entries mention. */
  function KeysOf<K, V>(data: seq<(DictKey<K>, V)>): set<K>
  {
    set i, x | 0 <= i < |data| && x in Covered(data[i].0) :: x
  }

  /** Writes one entry over an existing result, as the loop body does. */
  function Write<K, V>(m: map<K, V>, entry: (DictKey<K>, V)): (r: map<K, V>)
    ensures r.Keys == m.Keys + Covered(entry.0)
    ensures forall x :: x in Covered(entry.0) ==> r[x] == entry.1
    ensures forall x :: x in m && x !in Covered(entry.0) ==> r[x] == m[x]
  {
    m + map x | x in Covered(entry.0) :: entry.1
  }

  /** The flattened dict: the entries written one after another, later ones
      overwriting earlier ones. */
  function Flatten<K, V>(data: seq<(DictKey<K>, V)>): map<K, V>
  {
    if |data| == 0 then map[]
    else Write(Flatten(data[..|data| - 1]), data[|data| - 1])
  }

  /** The flattened keys are exactly the plain keys and the members of the
      tuple keys. */
  lemma {:induction false} FlattenKeys<K, V>(data: seq<(DictKey<K>, V)>)
    ensures Flatten(data).Keys == KeysOf(data)
  {
    if |data| > 0 {
      var front, last := data[..|data| - 1], data[|data| - 1];
      FlattenKeys(front);
      KeysOfSnoc(front, last);
      assert front + [last] == data;
    }
  }

  lemma KeysOfSnoc<K, V>(front: seq<(DictKey<K>, V)>, last: (DictKey<K>, V))
    ensures KeysOf(front + [last]) == KeysOf(front) + Covered(last.0)
  {
    var data := front + [last];
    forall x | x in KeysOf(data) ensures x in KeysOf(front) + Covered(last.0) {
      var i :| 0 <= i < |data| && x in Covered(data[i].0);
      if i < |front| {
        assert front[i] == data[i];
      }
    }
    forall x | x in KeysOf(front) ensures x in KeysOf(data) {
      var i :| 0 <= i < |front| && x in Covered(front[i].0);
      assert data[i] == front[i];
    }
    forall x | x in Covered(last.0) ensures x in KeysOf(data) {
      assert data[|front|] == last;
    }
  }

  /** Appending an entry writes it over the flattened prefix. */
  lemma FlattenSnoc<K, V>(front: seq<(DictKey<K>, V)>, last: (DictKey<K>, V))
    ensures Flatten(front + [last]) == Write(Flatten(front), last)
  {
    assert (front + [last])[..|front|] == front;
  }

  /** Flattening a short literal dict, entry by entry. */
  lemma FlattenLiteral<K, V>(e0: (DictKey<K>, V), e1: (DictKey<K>, V))
    ensures Flatten([e0, e1]) == Write(Write(map[], e0), e1)
  {
    FlattenSnoc([], e0);
    assert [] + [e0] == [e0];
    FlattenSnoc([e0], e1);
    assert [e0] + [e1] == [e0, e1];
  }

  lemma FlattenLiteral3<K, V>(e0: (DictKey<K>, V), e1: (DictKey<K>, V), e2: (DictKey<K>, V))
    ensures Flatten([e0, e1, e2]) == Write(Write(Write(map[], e0), e1), e2)
  {
    FlattenLiteral(e0, e1);
    FlattenSnoc([e0, e1], e2);
    assert [e0, e1] + [e2] == [e0, e1, e2];
  }

  /** Writing a single key is a map update. */
  lemma WriteSingle<K, V>(m: map<K, V>, k: K, v: V)
    ensures Write(m, (Single(k), v)) == m[k := v]
  {
    SameEntries(Write(m, (Single(k), v)), m[k := v]);
  }

  /** Writing a tuple key updates its members one after another. */
  lemma WriteTuple<K, V>(m: map<K, V>, ks: seq<K>, v: V)
    ensures |ks| == 0 ==> Write(m, (Tuple(ks), v)) == m
    ensures |ks| > 0 ==> Write(m, (Tuple(ks), v)) == Write(m[ks[0] := v], (Tuple(ks[1..]), v))
  {
    if |ks| == 0 {
      SameEntries(Write(m, (Tuple(ks), v)), m);
    } else {
      WriteTupleStep(m, ks, v);
    }
  }

  lemma WriteTupleStep<K, V>(m: map<K, V>, ks: seq<K>, v: V)
    requires |ks| > 0
    ensures Write(m, (Tuple(ks), v)) == Write(m[ks[0] := v], (Tuple(ks[1..]), v))
  {
    assert forall x :: x in ks <==> x == ks[0] || x in ks[1..] by {
      assert ks == [ks[0]] + ks[1..];
    }
    SameEntries(Write(m, (Tuple(ks), v)), Write(m[ks[0] := v], (Tuple(ks[1..]), v)));
  }

  /** The iterative algorithm of flatten_tuple_of_keys: a fresh dict, filled
      entry by entry, each member of a tuple key in turn. */
  method FlattenTupleOfKeys<K, V>(data: seq<(DictKey<K>, V)>) returns (flat: map<K, V>)
    ensures flat.Keys == KeysOf(data)
    ensures flat == Flatten(data)
  {
    flat := map[];
    var i := 0;
    while i < |data|
      invariant 0 <= i <= |data|
      invariant flat == Flatten(data[..i])
    {
      var (key, value) := data[i];
      ghost var before := flat;
      match key {
        case Tuple(actions) =>
          flat := WriteEach(flat, actions, value);
        case Single(k) =>
          WriteSingle(flat, k, value);
          flat := flat[k := value];
      }
      assert flat == Write(before, data[i]);
      FlattenSnoc(data[..i], data[i]);
      assert data[..i + 1] == data[..i] + [data[i]];
      i := i + 1;
    }
    assert data[..i] == data;
    FlattenKeys(data);
  }

  /** The inner loop: every member of a tuple key receives the tuple's value. */
  method WriteEach<K, V>(m: map<K, V>, actions: seq<K>, value: V) returns (flat: map<K, V>)
    ensures flat == Write(m, (Tuple(actions), value))
  {
    flat := m;
    var j := 0;
    while j < |actions|
      invariant 0 <= j <= |actions|
      invariant flat.Keys == m.Keys + (set x | x in actions[..j])
      invariant forall x :: x in actions[..j] ==> flat[x] == value
      invariant forall x :: x in m && x !in actions[..j] ==> flat[x] == m[x]
    {
      flat := flat[actions[j] := value];
      j := j + 1;
      assert actions[..j] == actions[..j - 1] + [actions[j - 1]];
    }
    assert actions[..j] == actions;
    var w := Write(m, (Tuple(actions), value));
    assert flat.Keys == w.Keys;
  }

  /** Whether no entry after position i mentions x. */
  ghost predicate LastMention<K, V>(data: seq<(DictKey<K>, V)>, i: int, x: K)
    requires 0 <= i < |data|
  {
    x in Covered(data[i].0) && forall j :: i < j < |data| ==> x !in Covered(data[j].0)
  }

  /** On a collision the entry processed last wins: every output key carries
      the value of the last entry that mentions it. */
  lemma {:induction false} LastWriteWins<K, V>(data: seq<(DictKey<K>, V)>, i: int, x: K)
    requires 0 <= i < |data|
    requires LastMention(data, i, x)
    ensures x in Flatten(data) && Flatten(data)[x] == data[i].1
  {
    var n := |data| - 1;
    if i < n {
      var front := data[..n];
      assert x !in Covered(data[n].0);
      assert front[i] == data[i];
      forall j | i < j < |front| ensures x !in Covered(front[j].0) {
        assert front[j] == data[j];
      }
      LastWriteWins(front, i, x);
    }
  }

  /** A key that no tuple shadows later keeps its own value. */
  lemma SingleKeyKeepsValue<K, V>(data: seq<(DictKey<K>, V)>, i: int)
    requires 0 <= i < |data| && data[i].0.Single?
    requires forall j :: i < j < |data| ==> data[i].0.key !in Covered(data[j].0)
    ensures data[i].0.key in Flatten(data) && Flatten(data)[data[i].0.key] == data[i].1
  {
    LastWriteWins(data, i, data[i].0.key);
  }

  /** Every member of a tuple key that no later entry shadows maps to the tuple's value. */
  lemma TupleMemberTakesTupleValue<K, V>(data: seq<(DictKey<K>, V)>, i: int, x: K)
    requires 0 <= i < |data| && data[i].0.Tuple? && x in data[i].0.members
    requires forall j :: i < j < |data| ==> x !in Covered(data[j].0)
    ensures x in Flatten(data) && Flatten(data)[x] == data[i].1
  {
    LastWriteWins(data, i, x);
  }

  /** An empty tuple key contributes no entries and overwrites nothing. */
  lemma {:induction false} EmptyTupleIsInert<K, V>(pre: seq<(DictKey<K>, V)>, v: V, post: seq<(DictKey<K>, V)>)
    ensures Flatten(pre + [(Tuple([]), v)] + post) == Flatten(pre + post)
    decreases |post|
  {
    if |post| == 0 {
      assert pre + [(Tuple([]), v)] + post == pre + [(Tuple([]), v)];
      assert pre + post == pre;
      FlattenSnoc(pre, (Tuple([]), v));
      assert Covered<K>(Tuple([])) == {};
    } else {
      var last := post[|post| - 1];
      var front := post[..|post| - 1];
      assert pre + [(Tuple([]), v)] + post == (pre + [(Tuple([]), v)] + front) + [last];
      assert pre + post == (pre + front) + [last];
      FlattenSnoc(pre + [(Tuple([]), v)] + front, last);
      FlattenSnoc(pre + front, last);
      EmptyTupleIsInert(pre, v, front);
    }
  }

  /** The input has no tuple keys. */
  predicate NoTupleKeys<K, V>(data: seq<(DictKey<K>, V)>)
  {
    forall i :: 0 <= i < |data| ==> data[i].0.Single?
  }

  /** A dict without tuple keys is returned unchanged (as a map): each of its
      keys keeps its own value. With distinct keys this makes flattening
      idempotent, see FlattenIdempotent. */
  lemma {:induction false} FlattenWithoutTuples<K, V>(data: seq<(DictKey<K>, V)>)
    requires NoTupleKeys(data)
    requires forall i, j :: 0 <= i < j < |data| ==> data[i].0 != data[j].0
    ensures forall i :: 0 <= i < |data| ==>
      data[i].0.key in Flatten(data) && Flatten(data)[data[i].0.key] == data[i].1
  {
    forall i | 0 <= i < |data|
      ensures data[i].0.key in Flatten(data) && Flatten(data)[data[i].0.key] == data[i].1
    {
      forall j | i < j < |data| ensures data[i].0.key !in Covered(data[j].0) {
        assert data[i].0 != data[j].0;
      }
      LastWriteWins(data, i, data[i].0.key);
    }
  }

  /** The listing enumerates map m once per key, with single keys only. */
  ghost predicate Lists<K, V>(listing: seq<(DictKey<K>, V)>, m: map<K, V>)
  {
    && NoTupleKeys(listing)
    && (forall i, j :: 0 <= i < j < |listing| ==> listing[i].0 != listing[j].0)
    && KeysOf(listing) == m.Keys
    && (forall i :: 0 <= i < |listing| ==> listing[i].0.key in m && listing[i].1 == m[listing[i].0.key])
  }

  /** Flattening any listing of a map without tuple keys gives the map back. */
  lemma FlattenOfListing<K, V>(listing: seq<(DictKey<K>, V)>, m: map<K, V>)
    requires Lists(listing, m)
    ensures Flatten(listing) == m
  {
    FlattenWithoutTuples(listing);
    FlattenKeys(listing);
    var a := Flatten(listing);
    assert a.Keys == m.Keys;
    forall x | x in a ensures a[x] == m[x] {
      var i := ListedAt(listing, x);
    }
    SameEntries(a, m);
  }

  lemma SameEntries<K, V>(a: map<K, V>, b: map<K, V>)
    requires a.Keys == b.Keys
    requires forall x :: x in a ==> a[x] == b[x]
    ensures a == b
  {
  }

  /** Where a key of a listing without tuple keys is listed. */
  lemma ListedAt<K, V>(listing: seq<(DictKey<K>, V)>, x: K) returns (i: int)
    requires NoTupleKeys(listing) && x in KeysOf(listing)
    ensures 0 <= i < |listing| && listing[i].0 == Single(x)
  {
    i :| 0 <= i < |listing| && x in Covered(listing[i].0);
  }

  /** Flattening the listing of an already flattened dict changes nothing:
      whatever order its keys are listed in, flatten(flatten(d)) == flatten(d). */
  lemma FlattenIdempotent<K, V>(data: seq<(DictKey<K>, V)>, listing: seq<(DictKey<K>, V)>)
    requires Lists(listing, Flatten(data))
    ensures Flatten(listing) == Flatten(data)
  {
    FlattenOfListing(listing, Flatten(data));
  }
}

=== FILE: views.dfy ===
/** The per-request parts of the current viewsets (src/softdesk/views.py):
    the memoised owning project and contributor ids a view instance keeps,
    and the translation of store errors when a resource is created. */
module Views {
  import opened Wrappers
  import opened Accounts
  import opened Store

  /** The path parameters the router passes as keyword arguments. A URL
      segment is never empty, so a parameter is truthy exactly when present. */
  datatype Kwargs = Kwargs(projectPk: Option<Id>, issuePk: Option<Id>, pk: Option<Id>)

  /** A view instance: its keyword arguments and its two caches. */
  datatype Ctx = Ctx(kwargs: Kwargs, projectCache: Option<(Id, Project)>, contributorsCache: Option<set<UserId>>)

  /** A fresh view instance, as built for each request. */
  function FreshCtx(kwargs: Kwargs): Ctx
  {
    Ctx(kwargs, None, None)
  }

  /** `project_pk or pk`. */
  function ProjectKey(kwargs: Kwargs): Option<Id>
  {
    if kwargs.projectPk.Some? then kwargs.projectPk else kwargs.pk
  }

  /** current_project: the cached project if there is one, otherwise the
      project named by the path, which is then cached. None stands for the
      Http404 of get_object_or_404 when no such project exists; nothing is
      cached then. */
  function CurrentProject(ctx: Ctx, db: Db): (r: (Option<(Id, Project)>, Ctx))
    ensures ctx.projectCache.Some? ==> r == (ctx.projectCache, ctx)
    ensures ctx.projectCache.None? ==>
      (r.0.Some? <==> ProjectKey(ctx.kwargs).Some? && ProjectKey(ctx.kwargs).value in db.projects)
    ensures ctx.projectCache.None? && r.0.Some? ==>
      var k := ProjectKey(ctx.kwargs).value; r.0.value == (k, db.projects[k])
    ensures r.0.Some? ==> r.1 == ctx.(projectCache := r.0)
    ensures r.0.None? ==> r.1 == ctx
  {
    match ctx.projectCache
    case Some(p) => (Some(p), ctx)
    case None =>
      var key := ProjectKey(ctx.kwargs);
      if key.Some? && key.value in db.projects then
        var p := (key.value, db.projects[key.value]);
        (Some(p), ctx.(projectCache := Some(p)))
      else (None, ctx)
  }

  /** Once the project is cached, later reads return it without looking at
      the store again, whatever the store holds by then. */
  lemma CurrentProjectIsMemoised(ctx: Ctx, db: Db, later: Db)
    requires CurrentProject(ctx, db).0.Some?
    ensures var (p, ctx') := CurrentProject(ctx, db);
      CurrentProject(ctx', later) == (p, ctx')
  {
  }

  /** current_project_contributors_id: the user ids of the current project's
      contributor rows, computed once and then served from the cache; None
      when the project lookup raised Http404. */
  function CurrentContributorIds(ctx: Ctx, db: Db): (r: (Option<set<UserId>>, Ctx))
    ensures ctx.contributorsCache.Some? ==> r == (ctx.contributorsCache, ctx)
    ensures ctx.contributorsCache.None? && r.0.Some? ==>
      && CurrentProject(ctx, db).0.Some?
      && r.0.value == ContributorUsers(db, CurrentProject(ctx, db).0.value.0)
      && r.1.contributorsCache == r.0
    ensures ctx.contributorsCache.None? ==> (r.0.None? <==> CurrentProject(ctx, db).0.None?)
    ensures r.1.kwargs == ctx.kwargs
  {
    match ctx.contributorsCache
    case Some(ids) => (Some(ids), ctx)
    case None =>
      var (project, ctx1) := CurrentProject(ctx, db);
      match project
      case None => (None, ctx1)
      case Some((pid, _)) =>
        var ids := ContributorUsers(db, pid);
        (Some(ids), ctx1.(contributorsCache := Some(ids)))
  }

  /** The contributor ids are computed at most once per view instance. */
  lemma ContributorIdsAreMemoised(ctx: Ctx, db: Db, later: Db)
    requires CurrentContributorIds(ctx, db).0.Some?
    ensures var (ids, ctx') := CurrentContributorIds(ctx, db);
      CurrentContributorIds(ctx', later) == (ids, ctx')
  {
  }

  /** Creating a project and then reading it back through a fresh request
      shows its author among its contributor ids. */
  lemma AuthorSeesOwnProject(db: Db, author: UserId, title: string, kind: ProjectType, kwargs: Kwargs)
    requires Valid(db) && CreateProject(db, author, title, kind).Ok?
    requires ProjectKey(kwargs) == Some(CreateProject(db, author, title, kind).value.1)
    ensures var db' := CreateProject(db, author, title, kind).value.0;
      var r := CurrentContributorIds(FreshCtx(kwargs), db').0;
      r.Some? && author in r.value
  {
  }

  /** What a create request ends in. */
  datatype CreateOutcome = Created(db: Db) | ValidationError(message: string) | ServerError

  const DuplicateProjectMessage: string := "Vous avez déjà créé un projet avec ce nom."
  const DuplicateContributorMessage: string := "Cet utilisateur est déjà contributeur du projet"
  const DuplicateIssueMessage: string := "Vous avez déjà créé un issue avec ce nom dans ce projet."

  /** ProjectViewSet.perform_create: the caller becomes the author; a
      duplicate (author, title) becomes a validation error. */
  function PerformCreateProject(db: Db, user: UserId, title: string, kind: ProjectType): (r: CreateOutcome)
    requires Valid(db)
    ensures r.ValidationError? <==> ProjectTitleTaken(db, user, title)
    ensures r.ValidationError? ==> r.message == DuplicateProjectMessage
    ensures !r.ServerError?
    ensures r.Created? ==> Valid(r.db)
    ensures r.Created? ==> exists pid :: AuthoredAndEnrolled(r.db, pid, user)
    ensures r.Created? ==> r.db.issues == db.issues && r.db.comments == db.comments
    ensures r.Created? ==>
      exists pid: Id :: pid in r.db.projects && pid !in db.projects
        && r.db.projects == db.projects[pid := Project(user, title, kind)]
        && ContributorUsers(r.db, pid) == {user}
        && exists cid: Id :: cid in r.db.contributors && cid !in db.contributors
             && r.db.contributors == db.contributors[cid := Contributor(user, pid)]
  {
    match CreateProject(db, user, title, kind)
    case Ok((db', pid)) =>
      assert AuthoredAndEnrolled(db', pid, user);
      var cid: Id :| cid !in db.contributors && db'.contributors == db.contributors[cid := Contributor(user, pid)];
      assert cid in db'.contributors;
      NewProjectHasOnlyAuthor(db, db', pid, cid, user);
      Created(db')
    case Err(_) => ValidationError(DuplicateProjectMessage)
  }

  predicate AuthoredAndEnrolled(db: Db, pid: Id, user: UserId)
  {
    pid in db.projects && db.projects[pid].author == user && user in ContributorUsers(db, pid)
  }

  /** ContributorViewSet.perform_create: the project of the path is fetched
      (an uncaught DoesNotExist when it is missing) and the user enrolled; a
      duplicate (user, project) becomes a validation error. */
  function PerformCreateContributor(db: Db, projectPk: Id, user: UserId): (r: CreateOutcome)
    ensures r.ServerError? <==> projectPk !in db.projects
    ensures r.ValidationError? <==> projectPk in db.projects && IsEnrolled(db, user, projectPk)
    ensures r.ValidationError? ==> r.message == DuplicateContributorMessage
    ensures r.Created? && Valid(db) ==> ContributorUsers(r.db, projectPk) == ContributorUsers(db, projectPk) + {user}
    ensures r.Created? ==> r.db.projects == db.projects && r.db.issues == db.issues && r.db.comments == db.comments
    ensures r.Created? ==>
      exists cid: Id :: cid in r.db.contributors && (FreshCounters(db) ==> cid !in db.contributors)
        && r.db.contributors == db.contributors[cid := Contributor(user, projectPk)]
    ensures r.Created? && Valid(db) ==> Valid(r.db)
  {
    if projectPk !in db.projects then ServerError
    else
      match InsertContributor(db, user, projectPk)
      case Ok(db') =>
        assert Valid(db) ==> ContributorUsers(db', projectPk) == ContributorUsers(db, projectPk) + {user} by {
          if Valid(db) {
            EnrollAddsUser(db, user, projectPk);
          }
        }
        assert db.nextContributor in db'.contributors;
        Created(db')
      case Err(_) => ValidationError(DuplicateContributorMessage)
  }

  lemma EnrollAddsUser(db: Db, user: UserId, pid: Id)
    requires FreshCounters(db) && InsertContributor(db, user, pid).Ok?
    ensures ContributorUsers(InsertContributor(db, user, pid).value, pid) == ContributorUsers(db, pid) + {user}
  {
    var db' := InsertContributor(db, user, pid).value;
    var cid := db.nextContributor;
    forall u | u in ContributorUsers(db, pid) ensures u in ContributorUsers(db', pid) {
      var c :| c in db.contributors && db.contributors[c].project == pid && db.contributors[c].user == u;
      assert db'.contributors[c] == db.contributors[c];
    }
    assert db'.contributors[cid] == Contributor(user, pid);
  }

  /** IssueViewSet.perform_create: the caller becomes the author; a
      duplicate (author, project, title) becomes a validation error. */
  function PerformCreateIssue(
    db: Db, projectPk: Id, user: UserId, title: string, assignedTo: Option<UserId>,
    priority: Option<IssuePriority>, issueType: Option<IssueType>, status: Option<IssueStatus>): (r: CreateOutcome)
    ensures r.ServerError? <==> projectPk !in db.projects
    ensures r.ValidationError? <==> projectPk in db.projects && IssueTitleTaken(db, user, projectPk, title)
    ensures r.ValidationError? ==> r.message == DuplicateIssueMessage
    ensures r.Created? ==>
      && r.db.projects == db.projects && r.db.contributors == db.contributors && r.db.comments == db.comments
      && exists iid: Id :: iid in r.db.issues && (FreshCounters(db) ==> iid !in db.issues)
           && r.db.issues == db.issues[iid := Issue(user, projectPk, title, assignedTo, priority, issueType,
                                                    if status.Some? then status.value else ToDo)]
  {
    if projectPk !in db.projects then ServerError
    else
      match CreateIssue(db, user, projectPk, title, assignedTo, priority, issueType, status)
      case Ok((db', iid)) =>
        assert iid in db'.issues;
        Created(db')
      case Err(_) => ValidationError(DuplicateIssueMessage)
  }

  /** CommentViewSet.perform_create: no error is translated; a database
      refusal reaches the client as a server error. */
  function PerformCreateComment(db: Db, issuePk: Id, uuid: Id, user: UserId, content: string): (r: CreateOutcome)
    ensures !r.ValidationError?
    ensures r.ServerError? <==> issuePk !in db.issues || uuid in db.comments
    ensures r.Created? ==> r.db.comments == db.comments[uuid := Comment(user, issuePk, content)]
    ensures r.Created? ==> r.db == db.(comments := db.comments[uuid := Comment(user, issuePk, content)])
  {
    if issuePk !in db.issues then ServerError
    else
      match CreateComment(db, uuid, user, issuePk, content)
      case Ok(db') => Created(db')
      case Err(_) => ServerError
  }
}

=== FILE: wrappers.dfy ===
/** Optional values and results with an error, used for Python's `None` and
    for the exceptions the modelled code raises. */
module Wrappers {

  datatype Option<+T> = None | Some(value: T)

  datatype Result<+R, +E> = Ok(value: R) | Err(error: E)
}
